=== FILE: README.md ===
# img-compressor core in Dafny

This project models the decision core of `img-compressor`. The tool walks an input directory and recompresses every `.jpg` image in place with `guetzli` and every `.png` image with `zopflipng`. It keeps a ledger file of MD5 digests so that images it has already optimised are skipped on later runs.

The model is functional. Trees, the ledger file and the trace of observable actions are immutable values. Each operation is a pure function over them. The one imperative piece is `byteCountIEC`, modelled as a method whose loop carries its invariants.

The model replaces everything outside the core with parameters:

- The MD5 hex digest is a function from file bytes to a string. It is assumed to return 32 lowercase hex characters.
- The compiled exclude glob is a predicate on slash-separated paths, or a compile failure.
- Running an external compressor is a function from the command line and the file's bytes to the rewritten bytes, or to a failure.
- Whether ledger appends succeed is a flag.

Modules:

- `Wrappers`: the `Option` type.
- `Decimal`: `strconv.FormatInt(n, 10)` / `%d`. It has a reader `Parse`, and the lemma `ParseFormat` proves that reading back the text gives the same integer.
- `Paths`: `filepath.Join` (as `dir + "/" + name`), `filepath.Ext`, ASCII `strings.ToLower`, and the `.jpg`/`.png` extension filter.
- `Ledger`: the ledger file, its loading as `bufio.ScanLines` cuts it, and the best-effort append of `digest + "\n"`.
- `Iec`: `byteCountIEC`, covering the choice of unit and divisor.
- `FileTree`: the directory tree and the walker's decision. That decision is the pre-order list of paths handed to `compress`, after pruning and extension filtering. `Yielded` is that pre-order selection for any entry test, and `Candidates` applies it with the extension filter.
- `Dispatch`: `compress` and the two command lines. It produces a trace of `Inspect`, `DryRunReport`, `Exec`, `Report` and `Append` actions.
- `Walker`: `walkInputDir`, threading the ledger file through the walk. The digest set loaded at start-up is a parameter that never changes.
- `Pipeline`: the start-up checks of `main`, the ledger load, the glob compilation, the walk, exit statuses and cross-run idempotence.

Behaviour of the code that is easy to misread:

- Only `.jpg` and `.png` are accepted. `.jpeg` is not (`Paths.JpegIsNotImage`).
- There is no regular-file check before `compress`. A directory named `x.jpg` that is not excluded is handed to `compress`. Hashing it fails, and the run aborts, even in dry-run mode (`Walker.ImageNamedDirectoryAborts`).
- An invalid exclude pattern makes `glob.MustCompile` panic. This happens after the ledger load and ends the process with status 2, not with the `log.Fatal` status 1.
- The in-memory digest set is filled only at start-up. Two files with identical new content in one run are therefore both compressed.
- The cross-run idempotence guarantee needs three conditions: ledger appends succeed, the run is not a dry run, and the ledger starts missing or newline-terminated. A hand-edited ledger whose last line lacks a newline glues the next digest onto that line. The digest then does not load as a line of its own (`Ledger.UnterminatedLedgerHidesDigest`).

## Model

| member | source | states |
|---|---|---|
| Decimal.ParseFormat | main.go:197 | The quality rendered with `strconv.FormatInt(q, 10)` reads back as exactly `q`. |
| Decimal.Format | main.go:197 | The text has a `-` exactly for negative values, then digits only, with no leading zero except for `0` itself. |
| Decimal.FormatInjective | main.go:258 | Distinct integers render as distinct decimal texts. |
| Paths.Ext | main.go:140 | `filepath.Ext` is the suffix of the path from the last `.` of its final element. It is empty exactly when that element has no `.`. |
| Paths.ImagePathBySuffix | main.go:140-141 | A path passes the extension filter if and only if its last four characters, lower-cased, are `.jpg` or `.png`. |
| Paths.Base | main.go:152 | `filepath.Base` of a path not ending in `/` is its longest suffix without a separator. |
| Paths.BaseOfJoin | main.go:152 | The final element of a walked path `dir/name` is `name`. |
| Paths.JpegIsNotImage | main.go:141 | A path whose last five characters lower-case to `.jpeg` never passes the extension filter. |
| Paths.ExtOfDotAndThree | main.go:140 | A `.` followed by three characters that are neither `.` nor `/` at the end of a path is exactly its `filepath.Ext`. |
| Ledger.Load | main.go:100-116 | A missing ledger loads as the empty set. An unreadable one, or one with a line of 65536 bytes or more, is fatal. Otherwise the loaded set is exactly the lines of the file, with one trailing carriage return dropped. |
| Ledger.SegmentsOfJoin | main.go:109-112 | Cutting newline-joined lines with the scanner's line splitting gives back exactly those lines. |
| Ledger.JoinOfSegments | main.go:109-112 | Newline-terminated ledger content is exactly its lines joined with newlines. |
| Ledger.AppendedLine | main.go:248 | Appending `d + "\n"` to terminated content keeps it terminated and adds the single line `d`. |
| Ledger.RecordThenLoad | main.go:242-251 | After appending a digest, a fresh load returns the old set plus that digest. The file stays newline-terminated, and a load that failed before still fails. |
| Ledger.Record | main.go:242-251 | An append never changes what the file already held. A writable missing or present file becomes its old content (empty if missing) followed by exactly `d + "\n"`. An unwritable or unreadable file is left as it was. |
| Ledger.RecordAllContent | main.go:242-251 | Appending a non-empty list of digests one by one to a missing or readable file leaves it holding its old content followed by the digests, each on its own line, in order. |
| Ledger.UnterminatedAppend | main.go:109-112 | For content whose last line lacks a newline, the scanner's lines after appending `d + "\n"` are the old lines with `d` added to the end of the last one. |
| Ledger.UnterminatedLedgerHidesDigest | main.go:109-112 | If the content lacks a final newline and `d` is not already one of its lines, appending `d + "\n"` glues `d` onto the last line. A fresh load that succeeds holds that last line followed by `d`, and does not hold `d`. |
| Iec.ByteCountIEC | main.go:255-267 | Sizes below 1024 render as `%d B`: the canonical decimal text (sign only when negative, no leading zeros) that reads back as the size, then ` B`. Larger sizes get divisor `1024^(e+1)` with `0 <= e <= 5`, a quotient in `[1, 1024)`, and the unit `KiB` … `EiB` for `e`. |
| FileTree.CandidatesComplete | main.go:118-145 | Every entry the walk reaches (no excluded ancestor, not excluded itself) whose lower-cased extension is `.jpg`/`.png` is handed to `compress`. |
| FileTree.CandidatesSound | main.go:118-145 | Every path handed to `compress` passes the extension filter, is not excluded, and belongs to an entry with no excluded ancestor. |
| Dispatch.GuetzliCommand | main.go:196-197 | The JPEG command line is `guetzli --quality <q> <path> <path>`, where `<q>` is the canonical decimal text of the configured quality (as `strconv.FormatInt` writes it), which reads back as that quality. |
| Dispatch.ZopflipngCommand | main.go:211-212 | The PNG command line is `zopflipng -m -y <path> <path>`. |
| Dispatch.CommandFor | main.go:171-178 | A command is chosen exactly for `.jpg` and `.png`. Any other extension is the fatal branch. |
| Dispatch.Compress | main.go:151-194 | `compress` keeps the entry's name and kind. An aborting call changes neither the file nor the ledger. Otherwise the ledger is unchanged, or it has had the digest of the file's new content appended. |
| Dispatch.CompressLedgerIsAppends | main.go:151-194 | After `compress`, the ledger file is the old file with exactly the digests the trace appends written to it, in order. |
| Dispatch.CompressTrace | main.go:151-194 | Each call hashes its path once, starts at most one command, and appends one digest exactly when a command completed. A call that does no work leaves the file and the ledger unchanged. |
| Dispatch.SkipAndDryRunArePure | main.go:160-169 | A file whose digest was loaded, or any file in dry-run mode, causes no command, no append and no ledger change. Only the dry run reports. |
| Dispatch.CompressRunsOneCommand | main.go:171-193 | A new file outside dry-run mode gets exactly one command chosen by extension. On success the rewritten bytes' digest is appended once, whatever the sizes. On failure the run aborts with nothing appended. |
| Dispatch.DecisionIgnoresLedgerFile | main.go:161-163 | What `compress` does depends on the set loaded at start-up, never on what the ledger file holds now. |
| Dispatch.CompressSettles | main.go:180-193 | A completed `compress` leaves a regular file whose digest a fresh load of the grown ledger contains. |
| Walker.EntryStep | main.go:139-143 | The entry's own step keeps its name and kind. If it aborts, nothing changes. Otherwise the ledger changes at most by appending the digest of the entry's new content. |
| Walker.EntryStepInspects | main.go:140-143 | The entry itself is hashed exactly when its path passes the extension filter. |
| Walker.EntryStepDryRun | main.go:166-169 | In dry-run mode the entry's own step changes neither the entry nor the ledger, and starts no command. |
| Walker.WalkChildren | main.go:118-145 | Walking the siblings keeps their number, order, names and kinds. |
| Walker.WalkEntry | main.go:118-145 | The walk keeps every entry's name and kind (file or directory). |
| Walker.WalkLedgerIsAppends | main.go:118-145 | After a walk, the ledger file is the starting file with exactly the trace's `Append` digests written to it, in trace order. Nothing is written that the trace does not show. |
| Walker.WalkChildrenLedgerIsAppends | main.go:118-145 | The same holds for walking a list of siblings. |
| Walker.ExcludedEntryYieldsNothing | main.go:124-137 | An excluded entry, and everything below it, yields no hashing, no command and no append. |
| Walker.WalkVisitsCandidates | main.go:118-145 | The walk hashes a prefix of the walker's candidates, in pre-order. A completed walk hashes exactly all of them. |
| Walker.ImageNamedDirectoryAborts | main.go:140-143 | A non-excluded directory with an image extension is handed to `compress`, and the run aborts. |
| Walker.DryRunWalkIsPure | main.go:166-169 | In dry-run mode the walk changes no file and no ledger byte, and starts no command. |
| Walker.SettledWalkIsQuiet | main.go:160-163 | If every candidate's digest is in the loaded set, the walk only hashes and changes nothing. |
| Walker.WalkSettles | main.go:171-193 | After a completed, non-dry walk with a writable ledger, every candidate's digest is in a fresh load of the grown ledger. |
| Pipeline.StartupCheck | main.go:60-80 | No start-up check fails exactly when the input dir is given, exists, is a directory, and the quality is at least 84. |
| Pipeline.Run | main.go:60-84 | A run ends with a usage error exactly when a start-up check fails. |
| Pipeline.StartupPrecedesWork | main.go:60-80 | The checks run in order: input dir given, path exists, path is a directory, quality at least 84. A failure exits with status 2 and does not depend on the ledger, the environment or the tree contents. |
| Pipeline.LedgerLoadOutcome | main.go:100-107 | A missing ledger is an empty one. An unreadable ledger aborts with status 1. |
| Pipeline.ExitCode | main.go:60-84 | Status 0 exactly for a completed run. Status 2 exactly for a usage error or the `MustCompile` panic. Status 1 for the `log.Fatal` aborts. |
| Pipeline.DryRunIsPure | main.go:166-169 | A dry run, however it ends, leaves the tree and the ledger file unchanged and starts no compressor. |
| Pipeline.FinishedRunVisitsCandidates | main.go:82-84 | A completed run hashes exactly the walker's candidates of the input tree. |
| Pipeline.RunHashesCandidatePrefix | main.go:82-84 | Any run past the start-up checks with a valid pattern, however it ends, hashes a prefix of the walker's candidates. |
| Pipeline.RunLedgerIsAppends | main.go:82-84 | Any run past the start-up checks, however it ends, leaves the ledger as the starting file with exactly its trace's appended digests written to it. For a writable missing or readable ledger, that is the old content followed by the digests, one per line. An unwritable ledger is never changed. |
| Pipeline.AllKnownRunIsQuiet | main.go:160-163 | If every candidate's digest is in the loaded ledger, a run starts no compressor and appends nothing. |
| Pipeline.JpegThenPngChildren | main.go:171-193 | A `.jpg` then a `.png` file with a fresh ledger get `guetzli` then `zopflipng`. Both are rewritten, and their new digests are appended in that order. |
| Pipeline.TwoImageScenario | main.go:60-84 | With `imgs` holding `a.jpg` and `b.png`, a missing ledger and succeeding compressors, the first run finishes after running `guetzli --quality 84` on `imgs/a.jpg` and then `zopflipng -m -y` on `imgs/b.png`. It rewrites both files and appends their new digests in order, so the new ledger holds exactly those two lines. A second run starts nothing. |
| Pipeline.SecondRunCompressesNothing | main.go:82-84 | After a completed non-dry run with a writable, terminated ledger, a second run over the result starts no compressor, appends nothing and changes nothing. |

## Left out

- MD5 computation (`getFileMD5`): a parameter from bytes to a digest string, assumed to be 32 lowercase hex characters.
- Glob compilation and matching (the `gobwas/glob` library): a predicate on paths, or a compile failure.
- Subprocess execution, output capture and verbose printing: only the command line and a success or failure result are modelled. A failing compressor is assumed to leave the file's bytes as they were. A partial in-place rewrite is not modelled.
- Filesystem errors other than the ones the model names are not modelled. That covers walk errors from reading a directory or `Lstat`. It also covers the first hash failing on an unreadable regular file, which would abort the run even in dry-run mode. Hash or stat failures after compressing are not modelled either. The model does name these failures: a missing, unreadable or over-long ledger, reading a directory as a file, and a compressor failure.
- The nil `info` dereference in `main` when `os.Stat` fails for a reason other than not-exist: the input is either absent, a file, or a directory.
- `filepath.Clean` inside `filepath.Join`: paths are joined as `dir + "/" + name`. A root given as `./dir` or with a trailing `/` therefore yields paths that differ from the program's.
- Walk order: children are visited in the order the tree lists them. The program sorts them by name.
- Symbolic links: the tree holds only files and directories.
- Ledger append failures: whether `writeMD5toFile` succeeds is one flag for the whole run. A run where one append fails and a later one succeeds is not modelled.
- Other operating systems: the model is Unix-only. `filepath.ToSlash` is the identity, and `filepath.Ext` and `filepath.Base` stop only at `/`.
- Paths.Base: the trailing-separator and empty-path cases of `filepath.Base` are not modelled. Only walked file paths reach the compressed-size message, and they never end in `/`.
- Paths.ToLower: folds only ASCII letters. No other character lower-cases to a letter of `jpg` or `png`, so the extension decision is unaffected.
- Iec.ByteCountIEC: does not render the `%.1f` mantissa. That is float64 formatting, exact only below 2^53. Only the unit, the divisor and the integer quotient are stated.
- Walker.WalkEntry: the "(dryrun)" and "excluded …" messages printed for excluded entries are not in the trace. The compressed-size message is a `Report` action holding the base name `filepath.Base(path)` and the two byte counts, not its rendered text.
- Flag registration, usage, help and version output, and `os.Exit` itself: the model returns exit statuses as values.
- The limit of 65536 bytes per ledger line counts characters as bytes.

=== FILE: decimal.dfy ===
/**
 * Base-10 rendering of integers, as `strconv.FormatInt(n, 10)` and the `%d`
 * verb produce it, together with a reader that recovers the integer from the
 * text. The reader is the partner that gives the rendering its meaning.
 */
module Decimal {
  import opened Wrappers

  predicate IsDigit(c: char) {
    '0' <= c <= '9'
  }

  predicate AllDigits(s: string) {
    forall i :: 0 <= i < |s| ==> IsDigit(s[i])
  }

  function DigitChar(d: nat): (c: char)
    requires d < 10
    ensures IsDigit(c) && c as int - '0' as int == d
  {
    ('0' as int + d) as char
  }

  function DigitValue(c: char): (d: nat)
    requires IsDigit(c)
    ensures d < 10 && DigitChar(d) == c
  {
    c as int - '0' as int
  }

  /** The decimal digits of `n`, most significant first, without leading zeros. */
  function Digits(n: nat): (s: string)
    ensures 1 <= |s|
    ensures AllDigits(s)
    ensures s[0] == '0' <==> n == 0
    decreases n
  {
    if n < 10 then [DigitChar(n)] else Digits(n / 10) + [DigitChar(n % 10)]
  }

  /** `strconv.FormatInt(n, 10)`: a minus sign for negative values, then the digits. */
  function Format(n: int): (s: string)
    ensures 1 <= |s|
    ensures s[0] == '-' <==> n < 0
    ensures n < 0 ==> 2 <= |s| && AllDigits(s[1..]) && s[1] != '0'
    ensures 0 <= n ==> AllDigits(s) && (s[0] == '0' ==> s == "0")
  {
    if n < 0 then "-" + Digits(-n) else Digits(n)
  }

  /** The value of a string of decimal digits, read most significant first. */
  function ValueOf(s: string): nat
    requires AllDigits(s)
    decreases |s|
  {
    if s == [] then 0 else 10 * ValueOf(s[..|s| - 1]) + DigitValue(s[|s| - 1])
  }

  /** Reads an optionally signed decimal integer; anything else is `None`. */
  function Parse(s: string): Option<int> {
    if 2 <= |s| && s[0] == '-' && AllDigits(s[1..]) then
      var magnitude: int := ValueOf(s[1..]);
      Some(-magnitude)
    else if 1 <= |s| && AllDigits(s) then Some(ValueOf(s))
    else None
  }

  lemma {:induction false} ValueOfDigits(n: nat)
    ensures ValueOf(Digits(n)) == n
    decreases n
  {
    if n >= 10 {
      var s := Digits(n);
      assert s[..|s| - 1] == Digits(n / 10);
      ValueOfDigits(n / 10);
    }
  }

  /** Reading back what `Format` wrote gives the original integer. */
  lemma ParseFormat(n: int)
    ensures Parse(Format(n)) == Some(n)
  {
    var f := Format(n);
    if n < 0 {
      assert f == "-" + Digits(-n);
      assert f[0] == '-' && f[1..] == Digits(-n);
      ValueOfDigits(-n);
    } else {
      assert f == Digits(n);
      assert IsDigit(f[0]);
      ValueOfDigits(n);
    }
  }

  /** Distinct integers are rendered as distinct strings. */
  lemma FormatInjective(a: int, b: int)
    ensures Format(a) == Format(b) ==> a == b
  {
    ParseFormat(a);
    ParseFormat(b);
  }
}

=== FILE: dispatch.dfy ===
/**
 * `compress` and the command lines of `guetzli` and `zopflipng`: given one
 * path from the walk, decide from the digest set loaded at start-up whether
 * work is needed, report only in dry-run mode, and otherwise run exactly one
 * external compressor in place, hash the result and append the new digest
 * to the ledger. Hashing, the compressors and the ledger's writability are
 * parameters; every observable step is recorded in a trace.
 */
module Dispatch {
  import opened Wrappers
  import opened Paths
  import opened FileTree
  import opened Ledger
  import Decimal

  /** The resolved command-line options the core reads. */
  datatype Config = Config(inputDir: string, dryRun: bool, jpegQuality: int)

  /** What an external compressor leaves behind: the rewritten bytes, or a non-zero exit. */
  datatype ToolResult = ToolSucceeded(output: Bytes) | ToolFailed

  /** The `-exclude` pattern after `glob.MustCompile`: its match predicate, or a compile failure. */
  datatype Glob = InvalidPattern | Pattern(matches: string -> bool)

  /**
   * The stand-ins for everything outside the core: the MD5 hex digest of a
   * file's bytes, the compiled exclude pattern, the effect of running a
   * command line on a file's bytes, and whether ledger appends succeed.
   */
  datatype Env = Env(
    md5: Bytes -> string,
    exclude: Glob,
    run: (seq<string>, Bytes) -> ToolResult,
    ledgerWritable: bool)

  /** `getFileMD5` yields a 32-character lowercase hex string for any content. */
  ghost predicate HashesAreDigests(md5: Bytes -> string) {
    forall b: Bytes :: IsDigest(md5(b))
  }

  /** The observable steps of a run. */
  datatype Action =
    | Inspect(path: string)                                // `compress` reads and hashes the file
    | DryRunReport(path: string)                           // "(dryrun) compressed: <path>"
    | Exec(argv: seq<string>)                              // an external compressor is started
    | Report(name: string, priorSize: nat, newSize: nat)   // "compressed: <name> from: .. to: .."
    | Append(digest: string)                               // `writeMD5toFile` is called

  /** The state after handling one entry or subtree: whether the run aborted, the entry, the ledger file, the trace. */
  datatype Outcome = Outcome(fatal: bool, tree: Tree, ledger: LedgerFile, trace: seq<Action>)

  /** What `pick` selects from one action: nothing or one item. */
  function Pick<T>(a: Action, pick: Action -> Option<T>): seq<T> {
    match pick(a) case Some(x) => [x] case None => []
  }

  /** The items `pick` selects from a trace, in order. */
  function Select<T>(trace: seq<Action>, pick: Action -> Option<T>): (r: seq<T>)
    ensures |r| <= |trace|
  {
    if trace == [] then [] else Pick(trace[0], pick) + Select(trace[1..], pick)
  }

  lemma {:induction false} SelectConcat<T>(a: seq<Action>, b: seq<Action>, pick: Action -> Option<T>)
    ensures Select(a + b, pick) == Select(a, pick) + Select(b, pick)
    decreases |a|
  {
    if a == [] {
      assert a + b == b;
    } else {
      var ab := a + b;
      assert ab != [] && ab[0] == a[0] && ab[1..] == a[1..] + b;
      SelectConcat(a[1..], b, pick);
      assert Select(ab, pick) == Pick(a[0], pick) + (Select(a[1..], pick) + Select(b, pick));
    }
  }

  lemma SelectOne<T>(x: Action, pick: Action -> Option<T>)
    ensures Select([x], pick) == Pick(x, pick)
  {
    assert [x][1..] == [];
  }

  lemma SelectTwo<T>(x: Action, y: Action, pick: Action -> Option<T>)
    ensures Select([x, y], pick) == Pick(x, pick) + Pick(y, pick)
  {
    assert [x, y] == [x] + [y];
    SelectConcat([x], [y], pick);
    SelectOne(x, pick);
    SelectOne(y, pick);
  }

  lemma SelectFour<T>(w: Action, x: Action, y: Action, z: Action, pick: Action -> Option<T>)
    ensures Select([w, x, y, z], pick) == Pick(w, pick) + Pick(x, pick) + Pick(y, pick) + Pick(z, pick)
  {
    assert [w, x, y, z] == [w, x] + [y, z];
    SelectConcat([w, x], [y, z], pick);
    SelectTwo(w, x, pick);
    SelectTwo(y, z, pick);
  }

  /** The selections of the one-step trace: a skipped, or failed-to-read, file. */
  lemma SkipSelections(path: string)
    ensures Inspected([Inspect(path)]) == [path]
    ensures Commands([Inspect(path)]) == [] && Appended([Inspect(path)]) == []
  {
    SelectOne(Inspect(path), InspectedPath);
    SelectOne(Inspect(path), ArgvOf);
    SelectOne(Inspect(path), DigestOf);
  }

  /** The selections of a dry-run report. */
  lemma DryRunSelections(path: string)
    ensures var trace := [Inspect(path), DryRunReport(path)];
      Inspected(trace) == [path] && Commands(trace) == [] && Appended(trace) == []
  {
    SelectTwo(Inspect(path), DryRunReport(path), InspectedPath);
    SelectTwo(Inspect(path), DryRunReport(path), ArgvOf);
    SelectTwo(Inspect(path), DryRunReport(path), DigestOf);
  }

  /** The selections of a compressor that failed. */
  lemma FailureSelections(path: string, argv: seq<string>)
    ensures var trace := [Inspect(path), Exec(argv)];
      Inspected(trace) == [path] && Commands(trace) == [argv] && Appended(trace) == []
  {
    SelectTwo(Inspect(path), Exec(argv), InspectedPath);
    SelectTwo(Inspect(path), Exec(argv), ArgvOf);
    SelectTwo(Inspect(path), Exec(argv), DigestOf);
  }

  /** The selections of a completed compression. */
  lemma SuccessSelections(path: string, argv: seq<string>, name: string, before: nat, after: nat, digest: string)
    ensures var trace := [Inspect(path), Exec(argv), Report(name, before, after), Append(digest)];
      Inspected(trace) == [path] && Commands(trace) == [argv] && Appended(trace) == [digest]
  {
    var report := Report(name, before, after);
    SelectFour(Inspect(path), Exec(argv), report, Append(digest), InspectedPath);
    SelectFour(Inspect(path), Exec(argv), report, Append(digest), ArgvOf);
    SelectFour(Inspect(path), Exec(argv), report, Append(digest), DigestOf);
  }

  function ArgvOf(a: Action): Option<seq<string>> {
    if a.Exec? then Some(a.argv) else None
  }

  function DigestOf(a: Action): Option<string> {
    if a.Append? then Some(a.digest) else None
  }

  function InspectedPath(a: Action): Option<string> {
    if a.Inspect? then Some(a.path) else None
  }

  /** The command lines a trace starts, in order. */
  function Commands(trace: seq<Action>): seq<seq<string>> {
    Select(trace, ArgvOf)
  }

  /** The digests a trace appends to the ledger, in order. */
  function Appended(trace: seq<Action>): seq<string> {
    Select(trace, DigestOf)
  }

  /** The paths a trace hands to `compress`, in order. */
  function Inspected(trace: seq<Action>): seq<string> {
    Select(trace, InspectedPath)
  }

  /** Only hashing happened: nothing was started, reported, or appended. */
  predicate Quiet(trace: seq<Action>) {
    forall k :: 0 <= k < |trace| ==> trace[k].Inspect?
  }

  /** `guetzli --quality <q> <path> <path>`: lossy JPEG recompression in place. */
  function GuetzliCommand(quality: int, path: string): (argv: seq<string>)
    ensures |argv| == 5 && argv[0] == "guetzli" && argv[1] == "--quality"
    ensures argv[2] == Decimal.Format(quality) && Decimal.Parse(argv[2]) == Some(quality)
    ensures argv[3] == path && argv[4] == path
  {
    Decimal.ParseFormat(quality);
    ["guetzli", "--quality", Decimal.Format(quality), path, path]
  }

  /** `zopflipng -m -y <path> <path>`: lossless PNG recompression in place, overwriting. */
  function ZopflipngCommand(path: string): (argv: seq<string>)
    ensures |argv| == 5 && argv[0] == "zopflipng" && argv[1] == "-m" && argv[2] == "-y"
    ensures argv[3] == path && argv[4] == path
  {
    ["zopflipng", "-m", "-y", path, path]
  }

  /** The `switch ext` of `compress`; any other extension is fatal. */
  function CommandFor(ext: string, quality: int, path: string): (r: Option<seq<string>>)
    ensures r.Some? <==> IsImageExt(ext)
  {
    if ext == ".jpg" then Some(GuetzliCommand(quality, path))
    else if ext == ".png" then Some(ZopflipngCommand(path))
    else None
  }

  /**
   * `compress(path, ext, size)` applied to `entry`, with `loaded` the digest
   * set read at start-up. Reading a directory fails, so a directory reaching
   * this point aborts the run; so does a compressor's non-zero exit.
   */
  function Compress(c: Config, env: Env, loaded: set<string>, path: string, ext: string,
                    entry: Tree, ledger: LedgerFile): (r: Outcome)
    ensures r.tree.name == entry.name && (r.tree.Dir? <==> entry.Dir?)
    ensures r.fatal ==> r.tree == entry && r.ledger == ledger
    ensures r.ledger == ledger || (r.tree.File? && r.ledger == Record(ledger, env.md5(r.tree.content), env.ledgerWritable))
  {
    if entry.Dir? then Outcome(true, entry, ledger, [Inspect(path)])
    else
      var digest := env.md5(entry.content);
      if digest in loaded then Outcome(false, entry, ledger, [Inspect(path)])
      else if c.dryRun then Outcome(false, entry, ledger, [Inspect(path), DryRunReport(path)])
      else
        match CommandFor(ext, c.jpegQuality, path)
        case None => Outcome(true, entry, ledger, [Inspect(path)])
        case Some(argv) =>
          match env.run(argv, entry.content)
          case ToolFailed => Outcome(true, entry, ledger, [Inspect(path), Exec(argv)])
          case ToolSucceeded(output) =>
            var newDigest := env.md5(output);
            Outcome(false, File(entry.name, output), Record(ledger, newDigest, env.ledgerWritable),
                    [Inspect(path), Exec(argv), Report(Base(path), |entry.content|, |output|), Append(newDigest)])
  }

  /**
   * Every call hashes its path once, starts at most one command, and appends
   * at most the digest of the bytes that command produced.
   */
  lemma CompressTrace(c: Config, env: Env, loaded: set<string>, path: string, ext: string,
                      entry: Tree, ledger: LedgerFile)
    ensures var r := Compress(c, env, loaded, path, ext, entry, ledger);
      && Inspected(r.trace) == [path]
      && |Commands(r.trace)| <= 1
      && |Appended(r.trace)| == (if !r.fatal && Commands(r.trace) != [] then 1 else 0)
      && (Quiet(r.trace) ==> r.tree == entry && r.ledger == ledger)
  {
    var r := Compress(c, env, loaded, path, ext, entry, ledger);
    if entry.Dir? || env.md5(entry.content) in loaded {
      SkipSelections(path);
    } else if c.dryRun {
      DryRunSelections(path);
    } else if CommandFor(ext, c.jpegQuality, path).None? {
      SkipSelections(path);
    } else {
      var argv := CommandFor(ext, c.jpegQuality, path).value;
      match env.run(argv, entry.content)
      case ToolFailed =>
        assert r.fatal && r.trace == [Inspect(path), Exec(argv)];
        assert !Quiet(r.trace) by { assert !r.trace[1].Inspect?; }
        FailureSelections(path, argv);
      case ToolSucceeded(output) =>
        var digest := env.md5(output);
        assert r.trace == [Inspect(path), Exec(argv), Report(Base(path), |entry.content|, |output|), Append(digest)];
        assert !Quiet(r.trace) by { assert !r.trace[1].Inspect?; }
        SuccessSelections(path, argv, Base(path), |entry.content|, |output|, digest);
    }
  }

  /**
   * The ledger file after `compress` is the old file with exactly the digests
   * the trace shows appended, replayed through `writeMD5toFile`.
   */
  lemma CompressLedgerIsAppends(c: Config, env: Env, loaded: set<string>, path: string, ext: string,
                                entry: Tree, ledger: LedgerFile)
    ensures var r := Compress(c, env, loaded, path, ext, entry, ledger);
      r.ledger == RecordAll(ledger, Appended(r.trace), env.ledgerWritable)
  {
    var r := Compress(c, env, loaded, path, ext, entry, ledger);
    if entry.Dir? || env.md5(entry.content) in loaded {
      SkipSelections(path);
    } else if c.dryRun {
      DryRunSelections(path);
    } else if CommandFor(ext, c.jpegQuality, path).None? {
      SkipSelections(path);
    } else {
      var argv := CommandFor(ext, c.jpegQuality, path).value;
      match env.run(argv, entry.content)
      case ToolFailed =>
        FailureSelections(path, argv);
      case ToolSucceeded(output) =>
        var digest := env.md5(output);
        SuccessSelections(path, argv, Base(path), |entry.content|, |output|, digest);
        assert RecordAll(ledger, [digest], env.ledgerWritable) == Record(ledger, digest, env.ledgerWritable);
    }
  }

  /**
   * A file whose digest was loaded at start-up, or any file in dry-run mode,
   * is left alone: no command, no append, the ledger file unchanged; a dry
   * run reports exactly the files it would have compressed.
   */
  lemma SkipAndDryRunArePure(c: Config, env: Env, loaded: set<string>, path: string, ext: string,
                             entry: Tree, ledger: LedgerFile)
    requires entry.File?
    requires env.md5(entry.content) in loaded || c.dryRun
    ensures var r := Compress(c, env, loaded, path, ext, entry, ledger);
      && !r.fatal && r.tree == entry && r.ledger == ledger
      && Commands(r.trace) == [] && Appended(r.trace) == []
      && (Quiet(r.trace) <==> env.md5(entry.content) in loaded)
  {
    var r := Compress(c, env, loaded, path, ext, entry, ledger);
    if env.md5(entry.content) in loaded {
      assert r.trace == [Inspect(path)];
      SkipSelections(path);
    } else {
      assert r.trace == [Inspect(path), DryRunReport(path)] && !r.trace[1].Inspect?;
      DryRunSelections(path);
    }
  }

  /**
   * A new file outside dry-run mode gets exactly one command line, chosen by
   * its extension. When the compressor succeeds, the digest of the rewritten
   * bytes is appended exactly once, whether the file grew or shrank; when it
   * fails, the run aborts with nothing appended.
   */
  lemma CompressRunsOneCommand(c: Config, env: Env, loaded: set<string>, path: string, ext: string,
                               entry: Tree, ledger: LedgerFile)
    requires entry.File? && env.md5(entry.content) !in loaded && !c.dryRun
    requires IsImageExt(ext)
    ensures var r := Compress(c, env, loaded, path, ext, entry, ledger);
      var argv := if ext == ".jpg" then GuetzliCommand(c.jpegQuality, path) else ZopflipngCommand(path);
      && Commands(r.trace) == [argv]
      && (env.run(argv, entry.content).ToolSucceeded? ==>
            var output := env.run(argv, entry.content).output;
            && !r.fatal
            && r.tree == File(entry.name, output)
            && Appended(r.trace) == [env.md5(output)]
            && r.ledger == Record(ledger, env.md5(output), env.ledgerWritable))
      && (env.run(argv, entry.content).ToolFailed? ==> r.fatal && Appended(r.trace) == [])
  {
    var argv := CommandFor(ext, c.jpegQuality, path).value;
    match env.run(argv, entry.content)
    case ToolFailed => FailureSelections(path, argv);
    case ToolSucceeded(output) =>
      SuccessSelections(path, argv, Base(path), |entry.content|, |output|, env.md5(output));
  }

  /**
   * The decision reads only the set loaded at start-up, never the ledger
   * file: whatever has been appended during the run, the same steps happen.
   */
  lemma DecisionIgnoresLedgerFile(c: Config, env: Env, loaded: set<string>, path: string, ext: string,
                                  entry: Tree, l1: LedgerFile, l2: LedgerFile)
    ensures var r1 := Compress(c, env, loaded, path, ext, entry, l1);
      var r2 := Compress(c, env, loaded, path, ext, entry, l2);
      r1.fatal == r2.fatal && r1.tree == r2.tree && r1.trace == r2.trace
  {
    if !entry.Dir? && env.md5(entry.content) !in loaded && !c.dryRun {
      match CommandFor(ext, c.jpegQuality, path)
      case None =>
      case Some(argv) =>
        match env.run(argv, entry.content)
        case ToolFailed =>
        case ToolSucceeded(output) =>
    }
  }

  /**
   * Outside dry-run mode, with a writable ledger that a fresh load can read,
   * a completed `compress` leaves a regular file whose current digest a
   * fresh load of the ledger contains, and the ledger only grows.
   */
  lemma CompressSettles(c: Config, env: Env, loaded: set<string>, path: string, ext: string,
                        entry: Tree, ledger: LedgerFile)
    requires !c.dryRun && env.ledgerWritable && HashesAreDigests(env.md5)
    requires WellFormed(ledger) && Load(ledger).Loaded? && loaded <= Load(ledger).digests
    ensures var r := Compress(c, env, loaded, path, ext, entry, ledger);
      !r.fatal ==>
        && r.tree.File?
        && WellFormed(r.ledger) && Load(r.ledger).Loaded?
        && Load(ledger).digests <= Load(r.ledger).digests
        && env.md5(r.tree.content) in Load(r.ledger).digests
  {
    var r := Compress(c, env, loaded, path, ext, entry, ledger);
    if !r.fatal && r.ledger != ledger {
      var newDigest := env.md5(r.tree.content);
      assert r.ledger == Record(ledger, newDigest, true);
      RecordThenLoad(ledger, newDigest);
    }
  }
}

=== FILE: filetree.dfy ===
/**
 * The directory tree the walk visits, and the walker's decision on its own:
 * the pre-order list of paths `filepath.Walk` hands to `compress`, once the
 * exclude pattern has pruned subtrees and the extension filter has run.
 */
module FileTree {
  import opened Paths

  newtype byte = x: int | 0 <= x < 256

  type Bytes = seq<byte>

  /**
   * An entry of the input directory. Children are listed in the order the
   * walk visits them (`filepath.Walk` sorts them by name).
   */
  datatype Tree =
    | File(name: string, content: Bytes)
    | Dir(name: string, children: seq<Tree>)

  /**
   * The paths a pre-order walk yields when it stops at excluded entries and
   * keeps the remaining entries that `keep` accepts, directories included.
   */
  function Yielded(keep: string -> bool, excluded: string -> bool, path: string, t: Tree): (ps: seq<string>)
    ensures excluded(path) ==> ps == []
    decreases t
  {
    if excluded(path) then []
    else
      (if keep(path) then [path] else [])
      + (if t.Dir? then YieldedIn(keep, excluded, path, t.children) else [])
  }

  function YieldedIn(keep: string -> bool, excluded: string -> bool, dir: string, cs: seq<Tree>): seq<string>
    decreases cs
  {
    if cs == [] then []
    else Yielded(keep, excluded, Join(dir, cs[0].name), cs[0]) + YieldedIn(keep, excluded, dir, cs[1..])
  }

  /**
   * Paths handed to `compress`, in visiting order: an excluded entry yields
   * nothing and stops the descent; any other entry whose lower-cased
   * extension is `.jpg` or `.png` is yielded, directories included.
   */
  function Candidates(excluded: string -> bool, path: string, t: Tree): seq<string> {
    Yielded(IsImagePath, excluded, path, t)
  }

  function CandidatesIn(excluded: string -> bool, dir: string, cs: seq<Tree>): seq<string> {
    YieldedIn(IsImagePath, excluded, dir, cs)
  }

  /** A position in the tree: the child indices from the root down. */
  predicate ValidPos(t: Tree, pos: seq<nat>)
    decreases pos
  {
    pos == [] || (t.Dir? && pos[0] < |t.children| && ValidPos(t.children[pos[0]], pos[1..]))
  }

  /** The path the walk builds for the entry at `pos` below `root`. */
  function PathAt(root: string, t: Tree, pos: seq<nat>): string
    requires ValidPos(t, pos)
    decreases pos
  {
    if pos == [] then root
    else
      var child := t.children[pos[0]];
      PathAt(Join(root, child.name), child, pos[1..])
  }

  /** The entry at `pos` or one of its ancestors is excluded, so the walk never reaches it. */
  predicate Pruned(excluded: string -> bool, root: string, t: Tree, pos: seq<nat>)
    requires ValidPos(t, pos)
    decreases pos
  {
    excluded(root)
    || (pos != []
        && var child := t.children[pos[0]];
        Pruned(excluded, Join(root, child.name), child, pos[1..]))
  }

  lemma InConcat<T>(x: T, a: seq<T>, b: seq<T>)
    ensures x in a + b <==> x in a || x in b
  {
    if x in a + b {
      var i :| 0 <= i < |a + b| && (a + b)[i] == x;
      if i >= |a| {
        assert b[i - |a|] == x;
      }
    }
    if x in b {
      var i :| 0 <= i < |b| && b[i] == x;
      assert (a + b)[|a| + i] == x;
    }
  }

  /** The sibling list yields the first child's paths, then the rest's. */
  lemma YieldedInCons(keep: string -> bool, excluded: string -> bool, dir: string, cs: seq<Tree>, p: string)
    requires cs != []
    ensures p in YieldedIn(keep, excluded, dir, cs)
        <==> p in Yielded(keep, excluded, Join(dir, cs[0].name), cs[0]) || p in YieldedIn(keep, excluded, dir, cs[1..])
  {
    InConcat(p, Yielded(keep, excluded, Join(dir, cs[0].name), cs[0]), YieldedIn(keep, excluded, dir, cs[1..]));
  }

  lemma {:induction false} YieldedInHasChild(keep: string -> bool, excluded: string -> bool, dir: string,
                                             cs: seq<Tree>, k: nat, p: string)
    requires k < |cs| && p in Yielded(keep, excluded, Join(dir, cs[k].name), cs[k])
    ensures p in YieldedIn(keep, excluded, dir, cs)
    decreases k
  {
    YieldedInCons(keep, excluded, dir, cs, p);
    if k > 0 {
      assert cs[1..][k - 1] == cs[k];
      YieldedInHasChild(keep, excluded, dir, cs[1..], k - 1, p);
    }
  }

  lemma {:induction false} YieldedInFromChild(keep: string -> bool, excluded: string -> bool, dir: string,
                                              cs: seq<Tree>, p: string) returns (k: nat)
    requires p in YieldedIn(keep, excluded, dir, cs)
    ensures k < |cs| && p in Yielded(keep, excluded, Join(dir, cs[k].name), cs[k])
    decreases cs
  {
    assert cs != [];
    YieldedInCons(keep, excluded, dir, cs, p);
    if p in Yielded(keep, excluded, Join(dir, cs[0].name), cs[0]) {
      k := 0;
    } else {
      var j := YieldedInFromChild(keep, excluded, dir, cs[1..], p);
      k := j + 1;
      assert cs[1..][j] == cs[k];
    }
  }

  /** Every reached entry that `keep` accepts is yielded. */
  lemma {:induction false} YieldedComplete(keep: string -> bool, excluded: string -> bool, root: string, t: Tree, pos: seq<nat>)
    requires ValidPos(t, pos) && !Pruned(excluded, root, t, pos) && keep(PathAt(root, t, pos))
    ensures PathAt(root, t, pos) in Yielded(keep, excluded, root, t)
    decreases pos
  {
    if pos != [] {
      var child := t.children[pos[0]];
      YieldedComplete(keep, excluded, Join(root, child.name), child, pos[1..]);
      YieldedInHasChild(keep, excluded, root, t.children, pos[0], PathAt(root, t, pos));
    }
  }

  /**
   * Every entry the walk reaches (no excluded ancestor, not excluded itself)
   * whose extension is `.jpg` or `.png` is handed to `compress`.
   */
  lemma CandidatesComplete(excluded: string -> bool, root: string, t: Tree, pos: seq<nat>)
    requires ValidPos(t, pos) && !Pruned(excluded, root, t, pos)
    requires IsImagePath(PathAt(root, t, pos))
    ensures PathAt(root, t, pos) in Candidates(excluded, root, t)
  {
    YieldedComplete(IsImagePath, excluded, root, t, pos);
  }

  /** A position below child `k` extends to a position below `t`, with the same path and pruning. */
  lemma ChildPos(excluded: string -> bool, root: string, t: Tree, k: nat, sub: seq<nat>)
    requires t.Dir? && k < |t.children| && ValidPos(t.children[k], sub)
    ensures var pos := [k] + sub;
      var dir := Join(root, t.children[k].name);
      && ValidPos(t, pos)
      && PathAt(root, t, pos) == PathAt(dir, t.children[k], sub)
      && (Pruned(excluded, root, t, pos) <==> excluded(root) || Pruned(excluded, dir, t.children[k], sub))
  {
    var pos := [k] + sub;
    assert pos != [] && pos[0] == k && pos[1..] == sub;
  }

  /** Every yielded path is accepted by `keep`, not excluded, and the path of a reached entry. */
  lemma {:induction false} YieldedSound(keep: string -> bool, excluded: string -> bool, root: string, t: Tree, p: string)
    requires p in Yielded(keep, excluded, root, t)
    ensures keep(p) && !excluded(p)
    ensures exists pos :: ValidPos(t, pos) && !Pruned(excluded, root, t, pos) && PathAt(root, t, pos) == p
    decreases t
  {
    assert !excluded(root);
    if p == root && keep(root) {
      assert ValidPos(t, []) && !Pruned(excluded, root, t, []) && PathAt(root, t, []) == p;
    } else {
      assert t.Dir? && p in YieldedIn(keep, excluded, root, t.children);
      var k := YieldedInFromChild(keep, excluded, root, t.children, p);
      var child := t.children[k];
      var dir := Join(root, child.name);
      YieldedSound(keep, excluded, dir, child, p);
      var sub :| ValidPos(child, sub) && !Pruned(excluded, dir, child, sub) && PathAt(dir, child, sub) == p;
      ChildPos(excluded, root, t, k, sub);
      assert ValidPos(t, [k] + sub) && !Pruned(excluded, root, t, [k] + sub) && PathAt(root, t, [k] + sub) == p;
    }
  }

  /**
   * Conversely, every path handed to `compress` is the path of an entry the
   * walk reaches, and its extension is `.jpg` or `.png`.
   */
  lemma CandidatesSound(excluded: string -> bool, root: string, t: Tree, p: string)
    requires p in Candidates(excluded, root, t)
    ensures IsImagePath(p) && !excluded(p)
    ensures exists pos :: ValidPos(t, pos) && !Pruned(excluded, root, t, pos) && PathAt(root, t, pos) == p
  {
    YieldedSound(IsImagePath, excluded, root, t, p);
  }
}

=== FILE: iec.dfy ===
/**
 * `byteCountIEC`: the size rendering used in the "compressed: ... from: ...
 * to: ..." message. Sizes below 1024 are printed as a plain byte count;
 * larger ones are divided by the largest power of 1024 that keeps the
 * quotient below 1024 and labelled with the matching IEC unit.
 */
module Iec {
  import opened Wrappers
  import Decimal

  const Unit: nat := 1024
  const Int64Min: int := -0x8000_0000_0000_0000
  const Int64Max: int := 0x7fff_ffff_ffff_ffff

  /** The prefix letters indexed by the loop's exponent. */
  const Prefixes: string := "KMGTPE"

  /** The unit names in order of magnitude, the reference for the exponent. */
  const UnitNames: seq<string> := ["KiB", "MiB", "GiB", "TiB", "PiB", "EiB"]

  function Pow1024(k: nat): (p: nat)
    ensures 1 <= p
  {
    if k == 0 then 1 else Unit * Pow1024(k - 1)
  }

  /**
   * The integer part of the rendering: either the finished `"%d B"` text, or
   * the divisor and unit the `"%.1f %ciB"` text is built from.
   */
  datatype Rendering =
    | Plain(text: string)
    | Scaled(divisor: int, exponent: nat, unit: string)

  lemma PowGrows(k: nat)
    requires 7 <= k
    ensures Pow1024(k) > Int64Max
  {
    if k > 7 {
      PowGrows(k - 1);
    } else {
      assert Pow1024(7) == 0x40_0000_0000_0000_0000;
    }
  }

  lemma DivUnique(b: int, m: int, q: int, r: int)
    requires 0 < m && 0 <= r < m && b == m * q + r
    ensures b / m == q
  {
    var k := q - b / m;
    assert m * k == b % m - r;
  }

  lemma MulDistributes(x: int, a: int, c: int)
    ensures x * (a + c) == x * a + x * c
  {
  }

  lemma MulAssociates(x: int, y: int, z: int)
    ensures x * (y * z) == (x * y) * z
  {
  }

  lemma MulMonotone(x: nat, a: nat, c: nat)
    requires a <= c
    ensures x * a <= x * c
  {
  }

  lemma DivDiv(b: nat, x: nat, y: nat)
    requires 0 < x && 0 < y
    ensures b / x / y == b / (x * y)
  {
    var q := b / x;
    var r := b % x;
    var q2 := q / y;
    var r2 := q % y;
    assert b == x * q + r;
    assert q == y * q2 + r2;
    MulDistributes(x, y * q2, r2);
    MulAssociates(x, y, q2);
    assert b == (x * y) * q2 + (x * r2 + r);
    MulMonotone(x, r2, y - 1);
    MulDistributes(x, y, -1);
    assert x * r2 + r < x * y;
    DivUnique(b, x * y, q2, x * r2 + r);
  }

  method ByteCountIEC(b: int) returns (r: Rendering)
    requires Int64Min <= b <= Int64Max
    ensures r.Plain? <==> b < Unit
    ensures r.Plain? ==>
      && |r.text| >= 3
      && r.text[|r.text| - 2..] == " B"
      && Decimal.Parse(r.text[..|r.text| - 2]) == Some(b)
      && r.text == Decimal.Format(b) + " B"
    ensures r.Scaled? ==>
      && r.exponent < |UnitNames|
      && r.divisor == Pow1024(r.exponent + 1)
      && 1 <= b / r.divisor < Unit
      && r.unit == UnitNames[r.exponent]
  {
    if b < Unit {
      var digits := Decimal.Format(b);
      Decimal.ParseFormat(b);
      r := Plain(digits + " B");
      assert r.text[..|r.text| - 2] == digits;
      return;
    }
    var div: int := Unit;
    var exp: nat := 0;
    var n: int := b / Unit;
    while n >= Unit
      invariant div == Pow1024(exp + 1)
      invariant n == b / div
      invariant 1 <= n
      invariant div <= b
      invariant exp < |UnitNames|
      decreases n
    {
      DivDiv(b, div, Unit);
      div := div * Unit;
      exp := exp + 1;
      n := n / Unit;
      if exp + 1 >= 7 {
        PowGrows(exp + 1);
      }
    }
    r := Scaled(div, exp, [Prefixes[exp]] + "iB");
  }
}

=== FILE: ledger.dfy ===
/**
 * The ledger of already-compressed images: a text file holding one MD5
 * digest per line. It is read once at start-up into a set, the way a
 * `bufio.Scanner` with its default line splitting reads it, and each newly
 * compressed image later appends `digest + "\n"` to the file only.
 */
module Ledger {

  /** `bufio.MaxScanTokenSize`: a raw line this long or longer stops the scanner. */
  const MaxTokenSize: nat := 65536

  predicate IsHexDigit(c: char) {
    '0' <= c <= '9' || 'a' <= c <= 'f'
  }

  /** What `hex.EncodeToString` makes of a 16-byte MD5 sum. */
  predicate IsDigest(d: string) {
    |d| == 32 && forall i :: 0 <= i < |d| ==> IsHexDigit(d[i])
  }

  /** Index of the first newline of `s`, or `|s|` when there is none. */
  function NewlineIndex(s: string): (i: nat)
    ensures i <= |s|
    ensures i < |s| ==> s[i] == '\n'
    ensures forall j :: 0 <= j < i ==> s[j] != '\n'
  {
    if s == [] then 0
    else if s[0] == '\n' then 0
    else 1 + NewlineIndex(s[1..])
  }

  /**
   * The raw lines of `s` as `bufio.ScanLines` cuts them: each ends at a
   * newline, and a last line without one still counts when it is non-empty.
   */
  function Segments(s: string): (ls: seq<string>)
    ensures forall k :: 0 <= k < |ls| ==> '\n' !in ls[k]
    decreases |s|
  {
    if s == [] then []
    else
      var i := NewlineIndex(s);
      if i < |s| then [s[..i]] + Segments(s[i + 1..]) else [s]
  }

  /** `bufio.ScanLines` drops one carriage return before the newline. */
  function DropCR(line: string): string {
    if line != [] && line[|line| - 1] == '\r' then line[..|line| - 1] else line
  }

  /** The file content that holds exactly the given lines, each newline-terminated. */
  function JoinLines(ls: seq<string>): (s: string)
    ensures ls == [] <==> s == []
  {
    if ls == [] then [] else ls[0] + "\n" + JoinLines(ls[1..])
  }

  /** Empty, or ending in a newline: the shape of a ledger the program wrote itself. */
  predicate Terminated(s: string) {
    s == [] || s[|s| - 1] == '\n'
  }

  /** Cutting the joined lines yields the lines back. */
  lemma {:induction false} SegmentsOfJoin(ls: seq<string>)
    requires forall k :: 0 <= k < |ls| ==> '\n' !in ls[k]
    ensures Segments(JoinLines(ls)) == ls
    decreases |ls|
  {
    if ls != [] {
      var s := JoinLines(ls);
      var i := |ls[0]|;
      assert s[i] == '\n';
      assert forall j :: 0 <= j < i ==> s[j] == ls[0][j];
      assert NewlineIndex(s) == i by {
        NewlineIndexIs(s, i);
      }
      assert s[..i] == ls[0];
      assert s[i + 1..] == JoinLines(ls[1..]);
      SegmentsOfJoin(ls[1..]);
    }
  }

  lemma NewlineIndexIs(s: string, i: nat)
    requires i < |s| && s[i] == '\n'
    requires forall j :: 0 <= j < i ==> s[j] != '\n'
    ensures NewlineIndex(s) == i
  {
  }

  /** A newline-terminated content is exactly the join of its raw lines. */
  lemma {:induction false} JoinOfSegments(s: string)
    requires Terminated(s)
    ensures JoinLines(Segments(s)) == s
    decreases |s|
  {
    if s != [] {
      var i := NewlineIndex(s);
      assert i < |s|;
      var rest := s[i + 1..];
      assert Terminated(rest);
      JoinOfSegments(rest);
      assert Segments(s) == [s[..i]] + Segments(rest);
      assert ([s[..i]] + Segments(rest))[1..] == Segments(rest);
      assert JoinLines(Segments(s)) == s[..i] + "\n" + rest;
      SplitAt(s, i);
    }
  }

  lemma SplitAt<T>(s: seq<T>, i: nat)
    requires i < |s|
    ensures s == s[..i] + [s[i]] + s[i + 1..]
  {
  }

  lemma {:induction false} JoinLinesAppend(ls: seq<string>, d: string)
    ensures JoinLines(ls + [d]) == JoinLines(ls) + d + "\n"
    decreases |ls|
  {
    if ls != [] {
      assert (ls + [d])[1..] == ls[1..] + [d];
      JoinLinesAppend(ls[1..], d);
    }
  }

  /** Appending `d + "\n"` to terminated content adds exactly one raw line, `d`. */
  lemma AppendedLine(s: string, d: string)
    requires Terminated(s) && '\n' !in d
    ensures Terminated(s + d + "\n")
    ensures Segments(s + d + "\n") == Segments(s) + [d]
  {
    JoinOfSegments(s);
    JoinLinesAppend(Segments(s), d);
    SegmentsOfJoin(Segments(s) + [d]);
  }

  /** The state of the ledger file `<executable name>.txt`. */
  datatype LedgerFile =
    | Missing
    | Unreadable            // present, but opening it fails
    | Present(content: string)

  datatype LoadError = OpenFailed | LineTooLong

  /** The set of digests loaded at start-up, or the fatal error met while loading. */
  datatype Loaded = Loaded(digests: set<string>) | LoadFailed(error: LoadError)

  /** Whether some raw line is too long for the scanner's buffer. */
  predicate HasLongLine(s: string) {
    exists k :: 0 <= k < |Segments(s)| && |Segments(s)[k]| >= MaxTokenSize
  }

  /** The lines of `s` as `bufio.Scanner.Text` returns them. */
  function LineSet(s: string): set<string> {
    set k | 0 <= k < |Segments(s)| :: DropCR(Segments(s)[k])
  }

  /**
   * `loadCompressedMap`: a missing file is an empty ledger, any other open
   * failure and an over-long line are fatal, otherwise every line is a member.
   */
  function Load(f: LedgerFile): (r: Loaded)
    ensures f.Missing? ==> r == Loaded({})
    ensures f.Unreadable? ==> r == LoadFailed(OpenFailed)
    ensures f.Present? ==> (r.LoadFailed? <==> HasLongLine(f.content))
    ensures r.Loaded? && f.Present? ==>
      forall line :: line in r.digests <==> exists k :: 0 <= k < |Segments(f.content)| && DropCR(Segments(f.content)[k]) == line
  {
    match f
    case Missing => Loaded({})
    case Unreadable => LoadFailed(OpenFailed)
    case Present(content) =>
      if HasLongLine(content) then LoadFailed(LineTooLong) else Loaded(LineSet(content))
  }

  /** Missing or newline-terminated: the shapes the program itself leaves behind. */
  predicate WellFormed(f: LedgerFile) {
    f.Missing? || (f.Present? && Terminated(f.content))
  }

  /** What the file holds, taking a missing file as empty. */
  function Content(f: LedgerFile): string {
    if f.Present? then f.content else ""
  }

  /**
   * `writeMD5toFile`: append `d + "\n"`, creating the file when missing.
   * A failed open or write is only logged, so the file is left as it was.
   */
  function Record(f: LedgerFile, d: string, writable: bool): (r: LedgerFile)
    ensures f.Present? ==> r.Present? && f.content <= r.content
    ensures r != f ==>
      && writable && !f.Unreadable? && r.Present?
      && |d| + 1 <= |r.content| && r.content[|r.content| - |d| - 1..] == d + "\n"
    ensures writable && !f.Unreadable? ==> r == Present(Content(f) + d + "\n")
  {
    if !writable then f
    else
      match f
      case Missing => Present(d + "\n")
      case Unreadable => Unreadable
      case Present(content) => Present(content + d + "\n")
  }

  /** `writeMD5toFile` called once for each digest of `ds`, in order. */
  function RecordAll(f: LedgerFile, ds: seq<string>, writable: bool): (r: LedgerFile)
    ensures !writable || f.Unreadable? ==> r == f
    decreases |ds|
  {
    if ds == [] then f else RecordAll(Record(f, ds[0], writable), ds[1..], writable)
  }

  lemma {:induction false} RecordAllConcat(f: LedgerFile, a: seq<string>, b: seq<string>, writable: bool)
    ensures RecordAll(f, a + b, writable) == RecordAll(RecordAll(f, a, writable), b, writable)
    decreases |a|
  {
    if a == [] {
      assert a + b == b;
    } else {
      assert (a + b)[0] == a[0] && (a + b)[1..] == a[1..] + b;
      RecordAllConcat(Record(f, a[0], writable), a[1..], b, writable);
    }
  }

  /**
   * Successful appends of `ds` to a missing or readable file leave it holding
   * its old content followed by the digests, each on a line of its own.
   */
  lemma {:induction false} RecordAllContent(f: LedgerFile, ds: seq<string>)
    requires !f.Unreadable? && ds != []
    ensures RecordAll(f, ds, true) == Present(Content(f) + JoinLines(ds))
    decreases |ds|
  {
    var g := Record(f, ds[0], true);
    var rest := ds[1..];
    assert RecordAll(f, ds, true) == RecordAll(g, rest, true);
    assert Content(g) == Content(f) + (ds[0] + "\n");
    JoinLinesCons(ds);
    if rest == [] {
      assert JoinLines(rest) == [];
      assert RecordAll(g, rest, true) == g;
      AppendNothing(ds[0] + "\n");
    } else {
      RecordAllContent(g, rest);
      Associate(Content(f), ds[0] + "\n", JoinLines(rest));
    }
  }

  lemma JoinLinesCons(ds: seq<string>)
    requires ds != []
    ensures JoinLines(ds) == (ds[0] + "\n") + JoinLines(ds[1..])
  {
  }

  lemma AppendNothing<T>(a: seq<T>)
    ensures a + [] == a && [] + a == a
  {
  }

  lemma Associate<T>(a: seq<T>, b: seq<T>, c: seq<T>)
    ensures (a + b) + c == a + (b + c)
  {
  }

  /**
   * The ledger round trip: after a successful append of digest `d`, a fresh
   * load sees the old members plus `d` and nothing else, and the file stays
   * newline-terminated; a load that failed before still fails.
   */
  lemma RecordThenLoad(f: LedgerFile, d: string)
    requires WellFormed(f) && IsDigest(d)
    ensures WellFormed(Record(f, d, true))
    ensures Load(f).Loaded? ==> Load(Record(f, d, true)) == Loaded(Load(f).digests + {d})
    ensures Load(f).LoadFailed? ==> Load(Record(f, d, true)) == Load(f)
  {
    DigestIsOneLine(d);
    var s := Content(f);
    assert Record(f, d, true) == Present(s + d + "\n");
    AppendedLine(s, d);
    LongLineAfterAppend(s, d);
    LineSetAfterAppend(s, d);
    if f.Missing? {
      assert Segments(s) == [];
      assert LineSet(s) == {};
    }
  }

  lemma DigestIsOneLine(d: string)
    requires IsDigest(d)
    ensures '\n' !in d && DropCR(d) == d
  {
    assert IsHexDigit(d[|d| - 1]);
  }

  lemma LongLineAfterAppend(s: string, d: string)
    requires Segments(s + d + "\n") == Segments(s) + [d]
    requires |d| < MaxTokenSize
    ensures HasLongLine(s + d + "\n") <==> HasLongLine(s)
  {
    var before := Segments(s);
    var now := Segments(s + d + "\n");
    if HasLongLine(s + d + "\n") {
      var k :| 0 <= k < |now| && |now[k]| >= MaxTokenSize;
      assert now[k] == before[k];
    }
    if HasLongLine(s) {
      var k :| 0 <= k < |before| && |before[k]| >= MaxTokenSize;
      assert now[k] == before[k];
    }
  }

  lemma LineSetAfterAppend(s: string, d: string)
    requires Segments(s + d + "\n") == Segments(s) + [d]
    requires DropCR(d) == d
    ensures LineSet(s + d + "\n") == LineSet(s) + {d}
  {
    var before := Segments(s);
    var now := Segments(s + d + "\n");
    forall line | line in LineSet(s + d + "\n")
      ensures line in LineSet(s) + {d}
    {
      var k :| 0 <= k < |now| && DropCR(now[k]) == line;
      if k < |before| {
        assert now[k] == before[k];
      }
    }
    forall line | line in LineSet(s)
      ensures line in LineSet(s + d + "\n")
    {
      var k :| 0 <= k < |before| && DropCR(before[k]) == line;
      assert now[k] == before[k];
    }
    assert DropCR(now[|before|]) == d;
  }

  /**
   * Appending `d + "\n"` to content whose last line lacks a newline glues `d`
   * onto that line: the earlier raw lines stay, and the last becomes `last + d`.
   */
  lemma {:induction false} UnterminatedAppend(s: string, d: string)
    requires !Terminated(s) && '\n' !in d
    ensures var ls := Segments(s);
      && 1 <= |ls| && ls[|ls| - 1] != []
      && Segments(s + d + "\n") == ls[..|ls| - 1] + [ls[|ls| - 1] + d]
    decreases |s|
  {
    var i := NewlineIndex(s);
    if i == |s| {
      LastLineAppend(s, d);
    } else {
      var rest := s[i + 1..];
      assert rest != [] && rest[|rest| - 1] == s[|s| - 1];
      UnterminatedAppend(rest, d);
      var tail := d + "\n";
      assert rest + d + "\n" == rest + tail && s + d + "\n" == s + tail;
      EarlierLineAppend(s, tail, d, i);
    }
  }

  /** Content without a newline is one raw line, and the append extends it. */
  lemma LastLineAppend(s: string, d: string)
    requires s != [] && NewlineIndex(s) == |s| && '\n' !in d
    ensures Segments(s) == [s] && Segments(s + d + "\n") == [s + d]
  {
    var t := s + d + "\n";
    assert NewlineIndex(t) == |s| + |d| by {
      forall j | 0 <= j < |s| + |d|
        ensures t[j] != '\n'
      {
        if j >= |s| {
          assert t[j] == d[j - |s|];
        }
      }
      NewlineIndexIs(t, |s| + |d|);
    }
    assert t[..|s| + |d|] == s + d;
    assert t[|s| + |d| + 1..] == [];
  }

  /** The first raw line ends before the appended text `tail`, so only the rest is affected. */
  lemma EarlierLineAppend(s: string, tail: string, d: string, i: nat)
    requires i < |s| && NewlineIndex(s) == i && i + 1 < |s|
    requires var lr := Segments(s[i + 1..]);
      1 <= |lr| && Segments(s[i + 1..] + tail) == lr[..|lr| - 1] + [lr[|lr| - 1] + d]
    ensures var ls := Segments(s);
      && 1 <= |ls| && ls[|ls| - 1] == Segments(s[i + 1..])[|Segments(s[i + 1..])| - 1]
      && Segments(s + tail) == ls[..|ls| - 1] + [ls[|ls| - 1] + d]
  {
    var lr := Segments(s[i + 1..]);
    SegmentsAt(s, i);
    SegmentsAfterFirstLine(s, tail, i);
    ReplaceLastAfterCons(s[..i], lr, lr[|lr| - 1] + d);
  }

  /** Text appended after the first newline leaves the first line alone. */
  lemma SegmentsAfterFirstLine(s: string, tail: string, i: nat)
    requires i < |s| && NewlineIndex(s) == i
    ensures Segments(s + tail) == [s[..i]] + Segments(s[i + 1..] + tail)
  {
    var t := s + tail;
    SliceOfConcat(s, tail, i);
    SliceOfConcat(s, tail, i + 1);
    assert t[i] == s[i];
    NewlineIndexIs(t, i);
    SegmentsAt(t, i);
  }

  lemma SliceOfConcat<T>(a: seq<T>, b: seq<T>, j: nat)
    requires j <= |a|
    ensures (a + b)[..j] == a[..j] && (a + b)[j..] == a[j..] + b
  {
  }

  /** Cutting at the first newline, index `i`. */
  lemma SegmentsAt(s: string, i: nat)
    requires i < |s| && NewlineIndex(s) == i
    ensures Segments(s) == [s[..i]] + Segments(s[i + 1..])
  {
  }

  lemma ReplaceLastAfterCons<T>(x: T, ls: seq<T>, y: T)
    requires 1 <= |ls|
    ensures var xs := [x] + ls;
      && xs[|xs| - 1] == ls[|ls| - 1]
      && [x] + (ls[..|ls| - 1] + [y]) == xs[..|xs| - 1] + [y]
  {
    var xs := [x] + ls;
    assert xs[..|xs| - 1] == [x] + ls[..|ls| - 1];
  }

  /**
   * A ledger edited by hand so that its last line lacks a newline swallows
   * the next digest into that line: a fresh load that succeeds holds that
   * line followed by `d`, and holds `d` itself only if it was a line before.
   */
  lemma UnterminatedLedgerHidesDigest(s: string, d: string)
    requires IsDigest(d) && !Terminated(s) && d !in LineSet(s)
    ensures var ls := Segments(s);
      var after := Load(Record(Present(s), d, true));
      && 1 <= |ls|
      && (after.Loaded? ==> ls[|ls| - 1] + d in after.digests && d !in after.digests)
  {
    DigestIsOneLine(d);
    UnterminatedAppend(s, d);
    var ls := Segments(s);
    var n := |ls|;
    var last := ls[n - 1];
    var t := s + d + "\n";
    var now := Segments(t);
    assert Record(Present(s), d, true) == Present(t);
    assert now[n - 1] == last + d;
    assert DropCR(last + d) == last + d by {
      assert (last + d)[|last + d| - 1] == d[|d| - 1];
      assert IsHexDigit(d[|d| - 1]);
    }
    if Load(Present(t)).Loaded? {
      assert last + d in LineSet(t) by {
        assert DropCR(now[n - 1]) == last + d;
      }
      assert d !in LineSet(t) by {
        forall k | 0 <= k < |now|
          ensures DropCR(now[k]) != d
        {
          if k < n - 1 {
            assert now[k] == ls[k];
            assert DropCR(ls[k]) in LineSet(s);
          } else {
            assert |last + d| > |d|;
          }
        }
      }
    }
  }
}

=== FILE: paths.dfy ===
/**
 * The path helpers of Go's `path/filepath` that the walk relies on, for a
 * system whose separator is `/` (there `filepath.ToSlash` is the identity),
 * and the lower-casing applied to extensions.
 */
module Paths {

  const Separator: char := '/'

  /** The path the walk gives entry `name` inside directory `dir`. */
  function Join(dir: string, name: string): string {
    dir + [Separator] + name
  }

  /** Where the final element of `path` begins: just after its last separator. */
  function BaseStart(path: string): (i: nat)
    ensures i <= |path|
    ensures 0 < i ==> path[i - 1] == Separator
    ensures forall j :: i <= j < |path| ==> path[j] != Separator
    decreases |path|
  {
    if path == [] then 0
    else if path[|path| - 1] == Separator then |path|
    else BaseStart(path[..|path| - 1])
  }

  /** `filepath.Base` of a path that does not end in a separator: its final element. */
  function Base(path: string): (b: string)
    ensures Separator !in b
    ensures |b| <= |path| && b == path[|path| - |b|..]
    ensures |b| < |path| ==> path[|path| - |b| - 1] == Separator
  {
    var b := path[BaseStart(path)..];
    assert forall k :: 0 <= k < |b| ==> b[k] == path[BaseStart(path) + k];
    b
  }

  /** The final element of a joined path is the name joined on. */
  lemma BaseOfJoin(dir: string, name: string)
    requires Separator !in name
    ensures Base(Join(dir, name)) == name
  {
    var path := Join(dir, name);
    var b := Base(path);
    var n := |path|;
    assert path[|dir|] == Separator;
    assert forall k :: n - |b| <= k < n ==> path[k] == b[k - (n - |b|)];
    assert forall k :: |dir| < k < n ==> path[k] == name[k - |dir| - 1];
    assert |b| == |name|;
    assert path[n - |name|..] == name;
  }

  /**
   * `filepath.Ext`: the suffix starting at the last `.` of the final path
   * element, or empty when the final element has no `.`.
   */
  function Ext(path: string): (e: string)
    ensures |e| <= |path| - BaseStart(path) && e == path[|path| - |e|..]
    ensures e != [] ==> e[0] == '.'
    ensures forall k :: 1 <= k < |e| ==> e[k] != '.'
    ensures e == [] <==> forall j :: BaseStart(path) <= j < |path| ==> path[j] != '.'
    decreases |path|
  {
    if path == [] then []
    else
      var last := path[|path| - 1];
      if last == Separator then []
      else if last == '.' then "."
      else
        var e := Ext(path[..|path| - 1]);
        if e == [] then [] else e + [last]
  }

  /** `unicode.ToLower` restricted to ASCII letters. */
  function LowerChar(c: char): (l: char)
    ensures 'A' <= c <= 'Z' ==> 'a' <= l <= 'z'
    ensures !('A' <= c <= 'Z') ==> l == c
  {
    if 'A' <= c <= 'Z' then (c as int + 32) as char else c
  }

  /** `strings.ToLower` on ASCII text. */
  function ToLower(s: string): (r: string)
    ensures |r| == |s|
    ensures forall i :: 0 <= i < |s| ==> r[i] == LowerChar(s[i])
  {
    seq(|s|, i requires 0 <= i < |s| => LowerChar(s[i]))
  }

  /** The two extensions the walk hands to the compressors. */
  predicate IsImageExt(ext: string) {
    ext == ".jpg" || ext == ".png"
  }

  /** The extension `compress` receives: `strings.ToLower(filepath.Ext(path))`. */
  function ImageExt(path: string): string {
    ToLower(Ext(path))
  }

  predicate IsImagePath(path: string) {
    IsImageExt(ImageExt(path))
  }

  /** A `.` followed by three characters other than `.` and `/` ends the path: that is the extension. */
  lemma ExtOfDotAndThree(path: string)
    requires 4 <= |path| && path[|path| - 4] == '.'
    requires forall j :: |path| - 4 < j < |path| ==> path[j] != '.' && path[j] != Separator
    ensures Ext(path) == path[|path| - 4..]
  {
    var n := |path|;
    var e := Ext(path);
    assert e != [] by {
      assert BaseStart(path) <= n - 4;
    }
    var m := n - |e|;
    assert m == n - 4 by {
      assert path[m] == e[0] == '.';
      assert m <= n - 4;
      assert e[n - 4 - m] == path[n - 4];
    }
  }

  /**
   * An independent reading of the extension filter: a path is an image
   * exactly when its last four characters are `.jpg` or `.png` ignoring case.
   */
  lemma ImagePathBySuffix(path: string)
    ensures IsImagePath(path) <==> 4 <= |path| && IsImageExt(ToLower(path[|path| - 4..]))
  {
    var n := |path|;
    if 4 <= n && IsImageExt(ToLower(path[n - 4..])) {
      var tail := path[n - 4..];
      assert tail[0] == '.' && tail[1] != '.' && tail[2] != '.' && tail[3] != '.' by {
        assert LowerChar(tail[0]) == '.';
      }
      assert tail[1] != Separator && tail[2] != Separator && tail[3] != Separator;
      ExtOfDotAndThree(path);
    }
    if IsImagePath(path) {
      var e := Ext(path);
      assert |e| == 4 by {
        assert |ToLower(e)| == |e| && |ToLower(e)| == 4;
      }
      assert e == path[n - 4..];
    }
  }

  /** A path ending in `.jpeg`, in any case, is never taken for an image. */
  lemma JpegIsNotImage(path: string)
    requires 5 <= |path| && ToLower(path[|path| - 5..]) == ".jpeg"
    ensures !IsImagePath(path)
  {
    var n := |path|;
    ImagePathBySuffix(path);
    assert LowerChar(path[n - 4]) == ToLower(path[n - 5..])[1] == 'j';
    assert ToLower(path[n - 4..])[0] == LowerChar(path[n - 4]);
  }
}

=== FILE: pipeline.dfy ===
/**
 * `main` after flag parsing: the start-up checks in their fixed order, then
 * the ledger load, the exclude pattern's compilation and the walk. Exit
 * statuses follow the program: 2 for a usage error, 1 for `log.Fatal`, 2 for
 * the panic of `glob.MustCompile`, 0 for a completed run.
 */
module Pipeline {
  import opened Wrappers
  import opened FileTree
  import opened Ledger
  import opened Dispatch
  import opened Walker
  import opened Paths
  import Decimal

  /** The lowest `-jpeg-quality` accepted. */
  const MinJpegQuality: int := 84

  /** What `os.Stat(inputDir)` says about the input path. */
  datatype Stat = NotExist | NotADir | IsDir

  datatype UsageError = InputDirRequired | PathDoesNotExist | NotADirectory | QualityTooLow

  datatype Failure = LedgerLoadFailed(error: LoadError) | PatternInvalid | WalkAborted

  /** How a run ends, with the tree and ledger file it leaves behind and its trace. */
  datatype RunResult =
    | Usage(error: UsageError)
    | Aborted(failure: Failure, tree: Tree, ledger: LedgerFile, trace: seq<Action>)
    | Finished(tree: Tree, ledger: LedgerFile, trace: seq<Action>)

  /** The input path: absent, or the entry found there. */
  function StatOf(input: Option<Tree>): Stat {
    match input
    case None => NotExist
    case Some(File(_, _)) => NotADir
    case Some(Dir(_, _)) => IsDir
  }

  /** The start-up checks of `main`, the first failing one reported. */
  function StartupCheck(c: Config, st: Stat): (r: Option<UsageError>)
    ensures r.None? <==> c.inputDir != "" && st.IsDir? && c.jpegQuality >= MinJpegQuality
  {
    if c.inputDir == "" then Some(InputDirRequired)
    else if st == NotExist then Some(PathDoesNotExist)
    else if st == NotADir then Some(NotADirectory)
    else if c.jpegQuality < MinJpegQuality then Some(QualityTooLow)
    else None
  }

  /** One run of the program over `input` (the entry at `c.inputDir`) and the ledger file. */
  function Run(c: Config, env: Env, input: Option<Tree>, ledger: LedgerFile): (r: RunResult)
    ensures r.Usage? <==> StartupCheck(c, StatOf(input)).Some?
  {
    match StartupCheck(c, StatOf(input))
    case Some(e) => Usage(e)
    case None =>
      var root := input.value;
      match Load(ledger)
      case LoadFailed(e) => Aborted(LedgerLoadFailed(e), root, ledger, [])
      case Loaded(loaded) =>
        match env.exclude
        case InvalidPattern => Aborted(PatternInvalid, root, ledger, [])
        case Pattern(excluded) =>
          var o := WalkEntry(c, env, excluded, loaded, c.inputDir, root, ledger);
          if o.fatal then Aborted(WalkAborted, o.tree, o.ledger, o.trace)
          else Finished(o.tree, o.ledger, o.trace)
  }

  /** The process status: 2 for usage errors and the `MustCompile` panic, 1 for `log.Fatal`, 0 otherwise. */
  function ExitCode(r: RunResult): (code: int)
    ensures code == 0 <==> r.Finished?
    ensures code == 2 <==> r.Usage? || (r.Aborted? && r.failure.PatternInvalid?)
    ensures 0 <= code <= 2
  {
    match r
    case Usage(_) => 2
    case Aborted(failure, _, _, _) => if failure.PatternInvalid? then 2 else 1
    case Finished(_, _, _) => 0
  }

  /**
   * The start-up checks run in order (input dir given, path exists, path is
   * a directory, quality at least 84) and a failing one ends the run with
   * status 2 before the ledger is loaded or anything is walked: the result
   * then depends on neither the ledger file, the environment, nor the
   * contents of the input tree.
   */
  lemma StartupPrecedesWork(c: Config, env: Env, input: Option<Tree>, ledger: LedgerFile,
                            env2: Env, input2: Option<Tree>, ledger2: LedgerFile)
    ensures var r := Run(c, env, input, ledger);
      && (c.inputDir == "" ==> r == Usage(InputDirRequired))
      && (c.inputDir != "" && input.None? ==> r == Usage(PathDoesNotExist))
      && (c.inputDir != "" && input.Some? && input.value.File? ==> r == Usage(NotADirectory))
      && (c.inputDir != "" && input.Some? && input.value.Dir? && c.jpegQuality < MinJpegQuality ==>
            r == Usage(QualityTooLow))
      && (r.Usage? <==> c.inputDir == "" || !(input.Some? && input.value.Dir?) || c.jpegQuality < MinJpegQuality)
      && (r.Usage? ==> ExitCode(r) == 2)
      && (r.Usage? && StatOf(input2) == StatOf(input) ==> Run(c, env2, input2, ledger2) == r)
  {
  }

  /**
   * A missing ledger is an empty one; an unreadable one aborts the run with
   * status 1 once the start-up checks have passed.
   */
  lemma LedgerLoadOutcome(c: Config, env: Env, root: Tree, ledger: LedgerFile)
    requires StartupCheck(c, StatOf(Some(root))).None?
    ensures ledger.Unreadable? ==>
      Run(c, env, Some(root), ledger) == Aborted(LedgerLoadFailed(OpenFailed), root, ledger, [])
    ensures ledger.Missing? ==>
      var r := Run(c, env, Some(root), ledger);
      Load(ledger) == Loaded({}) && !(r.Aborted? && r.failure.LedgerLoadFailed?)
    ensures ExitCode(Run(c, env, Some(root), Unreadable)) == 1
  {
    assert Load(Unreadable) == LoadFailed(OpenFailed);
    assert Run(c, env, Some(root), Unreadable) == Aborted(LedgerLoadFailed(OpenFailed), root, Unreadable, []);
  }

  /**
   * Dry-run purity for a whole run: the tree and the ledger file come out as
   * they went in and no compressor is started, however the run ends.
   */
  lemma DryRunIsPure(c: Config, env: Env, input: Option<Tree>, ledger: LedgerFile)
    requires c.dryRun
    ensures var r := Run(c, env, input, ledger);
      !r.Usage? ==>
        && r.tree == input.value && r.ledger == ledger
        && Commands(r.trace) == [] && Appended(r.trace) == []
  {
    var r := Run(c, env, input, ledger);
    if !r.Usage? && Load(ledger).Loaded? && env.exclude.Pattern? {
      DryRunWalkIsPure(c, env, env.exclude.matches, Load(ledger).digests, c.inputDir, input.value, ledger);
    }
  }

  /**
   * A completed run hands to `compress` exactly the walker's candidates of
   * the input tree, in pre-order.
   */
  lemma FinishedRunVisitsCandidates(c: Config, env: Env, input: Option<Tree>, ledger: LedgerFile)
    requires Run(c, env, input, ledger).Finished?
    ensures Inspected(Run(c, env, input, ledger).trace) == Candidates(env.exclude.matches, c.inputDir, input.value)
  {
    WalkVisitsCandidates(c, env, env.exclude.matches, Load(ledger).digests, c.inputDir, input.value, ledger);
  }

  /**
   * Whatever way a run past the start-up checks ends, the paths it hashed are
   * a prefix of the walker's candidates: an abort only cuts the list short.
   */
  lemma RunHashesCandidatePrefix(c: Config, env: Env, input: Option<Tree>, ledger: LedgerFile)
    requires !Run(c, env, input, ledger).Usage? && env.exclude.Pattern?
    ensures input.Some?
    ensures Inspected(Run(c, env, input, ledger).trace) <= Candidates(env.exclude.matches, c.inputDir, input.value)
  {
    if Load(ledger).Loaded? {
      WalkVisitsCandidates(c, env, env.exclude.matches, Load(ledger).digests, c.inputDir, input.value, ledger);
    }
  }

  /**
   * Whatever way a run past the start-up checks ends, the ledger file it
   * leaves is the one it started from with exactly the digests its trace
   * appends written to it, in order: a writable ledger gains those lines and
   * nothing else, and an unwritable one is never changed.
   */
  lemma RunLedgerIsAppends(c: Config, env: Env, input: Option<Tree>, ledger: LedgerFile)
    requires !Run(c, env, input, ledger).Usage?
    ensures var r := Run(c, env, input, ledger);
      r.ledger == RecordAll(ledger, Appended(r.trace), env.ledgerWritable)
    ensures var r := Run(c, env, input, ledger);
      env.ledgerWritable && !ledger.Unreadable? && Appended(r.trace) != [] ==>
        r.ledger == Present(Content(ledger) + JoinLines(Appended(r.trace)))
    ensures !env.ledgerWritable ==> Run(c, env, input, ledger).ledger == ledger
  {
    var r := Run(c, env, input, ledger);
    if Load(ledger).Loaded? && env.exclude.Pattern? {
      WalkLedgerIsAppends(c, env, env.exclude.matches, Load(ledger).digests, c.inputDir, input.value, ledger);
    } else {
      assert r.trace == [] && r.ledger == ledger;
      assert Appended([]) == [];
    }
    if env.ledgerWritable && !ledger.Unreadable? && Appended(r.trace) != [] {
      RecordAllContent(ledger, Appended(r.trace));
    }
  }

  /**
   * A run whose every candidate is a file with a digest already in the
   * loaded ledger starts no compressor and appends nothing.
   */
  lemma AllKnownRunIsQuiet(c: Config, env: Env, root: Tree, ledger: LedgerFile)
    requires StartupCheck(c, StatOf(Some(root))).None? && env.exclude.Pattern?
    requires Load(ledger).Loaded?
    requires Settled(env.md5, env.exclude.matches, c.inputDir, root, Load(ledger).digests)
    ensures Run(c, env, Some(root), ledger).Finished?
    ensures var r := Run(c, env, Some(root), ledger);
      r.tree == root && r.ledger == ledger && Quiet(r.trace) && Commands(r.trace) == [] && Appended(r.trace) == []
  {
    SettledWalkIsQuiet(c, env, env.exclude.matches, Load(ledger).digests, c.inputDir, root, ledger);
    QuietSelectsNothing(Run(c, env, Some(root), ledger).trace);
  }

  lemma {:induction false} QuietSelectsNothing(trace: seq<Action>)
    requires Quiet(trace)
    ensures Commands(trace) == [] && Appended(trace) == []
    decreases |trace|
  {
    if trace != [] {
      assert Quiet(trace[1..]) by {
        forall k | 0 <= k < |trace[1..]|
          ensures trace[1..][k].Inspect?
        {
          assert trace[1..][k] == trace[k + 1];
        }
      }
      QuietSelectsNothing(trace[1..]);
    }
  }

  /**
   * Cross-run idempotence: after a completed run (not a dry run, ledger
   * writable and newline-terminated or missing), running again over the
   * resulting tree and ledger starts no compressor, appends nothing, and
   * changes nothing.
   */
  lemma SecondRunCompressesNothing(c: Config, env: Env, root: Tree, ledger: LedgerFile)
    requires !c.dryRun && env.ledgerWritable && HashesAreDigests(env.md5)
    requires WellFormed(ledger)
    requires Run(c, env, Some(root), ledger).Finished?
    ensures var first := Run(c, env, Some(root), ledger);
      var second := Run(c, env, Some(first.tree), first.ledger);
      && second == Finished(first.tree, first.ledger, second.trace)
      && Commands(second.trace) == [] && Appended(second.trace) == []
  {
    var first := Run(c, env, Some(root), ledger);
    var excluded := env.exclude.matches;
    WalkSettles(c, env, excluded, Load(ledger).digests, c.inputDir, root, ledger);
    assert StatOf(Some(first.tree)) == IsDir;
    AllKnownRunIsQuiet(c, env, first.tree, first.ledger);
  }

  /** The command line the scenario's JPEG gets at the minimum quality. */
  lemma ScenarioJpegCommand()
    ensures GuetzliCommand(84, "imgs/a.jpg") == ["guetzli", "--quality", "84", "imgs/a.jpg", "imgs/a.jpg"]
  {
    assert Decimal.Format(84) == "84" by {
      assert Decimal.Digits(8) == "8";
      assert Decimal.Digits(84) == Decimal.Digits(8) + "4";
    }
  }

  /** `imgs` fails the extension filter, so the root itself is not compressed. */
  lemma ScenarioRootIsNoImage()
    ensures !IsImagePath("imgs")
  {
    Paths.ImagePathBySuffix("imgs");
    assert ToLower("imgs") == "imgs";
  }

  /** A path ending in a lower-case image extension. */
  lemma ScenarioImagePath(p: string, ext: string)
    requires 4 <= |p| && p[|p| - 4..] == ext && IsImageExt(ext)
    ensures IsImagePath(p) && ImageExt(p) == ext
  {
    Paths.ImagePathBySuffix(p);
    assert ToLower(ext) == ext;
    var e := Ext(p);
    assert |e| == 4;
  }

  lemma PairConcat<T>(x: T, y: T)
    ensures [x] + [y] == [x, y]
  {
  }

  /** A non-excluded file that passes the extension filter is exactly one `compress` call. */
  lemma ImageFileIsCompressed(c: Config, env: Env, excluded: string -> bool, path: string, f: Tree, ledger: LedgerFile)
    requires f.File? && !excluded(path) && IsImagePath(path)
    ensures WalkEntry(c, env, excluded, {}, path, f, ledger) == Compress(c, env, {}, path, ImageExt(path), f, ledger)
  {
  }

  /** The sibling loop on an image file: its `compress` call, then the rest unless that was fatal. */
  lemma ImageFileStep(c: Config, env: Env, excluded: string -> bool, dir: string, f: Tree, cs: seq<Tree>,
                      ledger: LedgerFile)
    requires f.File? && !excluded(Join(dir, f.name)) && IsImagePath(Join(dir, f.name))
    ensures var p := Join(dir, f.name);
      var step := Compress(c, env, {}, p, ImageExt(p), f, ledger);
      var rest := WalkChildren(c, env, excluded, {}, dir, cs, step.ledger);
      var m := WalkChildren(c, env, excluded, {}, dir, [f] + cs, ledger);
      && (step.fatal ==> m == Outcomes(true, [step.tree] + cs, step.ledger, step.trace))
      && (!step.fatal ==> m == Outcomes(rest.fatal, [step.tree] + rest.trees, rest.ledger, step.trace + rest.trace))
  {
    ImageFileIsCompressed(c, env, excluded, Join(dir, f.name), f, ledger);
    WalkChildrenStep(c, env, excluded, {}, dir, f, cs, ledger);
  }

  /**
   * The children of a directory holding a new JPEG and then a new PNG,
   * neither excluded, both compressors succeeding: both are compressed, in
   * order, and both new digests are appended.
   */
  lemma JpegThenPngChildren(c: Config, env: Env, excluded: string -> bool, dir: string, a: Tree, b: Tree)
    requires !c.dryRun && a.File? && b.File?
    requires var pa := Join(dir, a.name); !excluded(pa) && IsImagePath(pa) && ImageExt(pa) == ".jpg"
    requires var pb := Join(dir, b.name); !excluded(pb) && IsImagePath(pb) && ImageExt(pb) == ".png"
    requires env.run(GuetzliCommand(c.jpegQuality, Join(dir, a.name)), a.content).ToolSucceeded?
    requires env.run(ZopflipngCommand(Join(dir, b.name)), b.content).ToolSucceeded?
    ensures var m := WalkChildren(c, env, excluded, {}, dir, [a, b], Missing);
      var jpg := GuetzliCommand(c.jpegQuality, Join(dir, a.name));
      var png := ZopflipngCommand(Join(dir, b.name));
      var newA := env.run(jpg, a.content).output;
      var newB := env.run(png, b.content).output;
      && !m.fatal
      && m.trees == [File(a.name, newA), File(b.name, newB)]
      && Commands(m.trace) == [jpg, png]
      && Appended(m.trace) == [env.md5(newA), env.md5(newB)]
  {
    var pa := Join(dir, a.name);
    var pb := Join(dir, b.name);
    var jpg := GuetzliCommand(c.jpegQuality, pa);
    var png := ZopflipngCommand(pb);
    var newA := env.run(jpg, a.content).output;
    var newB := env.run(png, b.content).output;
    var stepA := Compress(c, env, {}, pa, ".jpg", a, Missing);
    assert !stepA.fatal && stepA.tree == File(a.name, newA)
        && Commands(stepA.trace) == [jpg] && Appended(stepA.trace) == [env.md5(newA)] by {
      CompressRunsOneCommand(c, env, {}, pa, ".jpg", a, Missing);
    }
    var stepB := Compress(c, env, {}, pb, ".png", b, stepA.ledger);
    assert !stepB.fatal && stepB.tree == File(b.name, newB)
        && Commands(stepB.trace) == [png] && Appended(stepB.trace) == [env.md5(newB)] by {
      CompressRunsOneCommand(c, env, {}, pb, ".png", b, stepA.ledger);
    }
    var rest := WalkChildren(c, env, excluded, {}, dir, [b], stepA.ledger);
    assert !rest.fatal && rest.trees == [stepB.tree] && rest.trace == stepB.trace by {
      ImageFileStep(c, env, excluded, dir, b, [], stepA.ledger);
      AppendNothing([b]);
      AppendNothing([stepB.tree]);
      AppendNothing(stepB.trace);
    }
    var m := WalkChildren(c, env, excluded, {}, dir, [a, b], Missing);
    assert !m.fatal && m.trees == [stepA.tree, stepB.tree] && m.trace == stepA.trace + stepB.trace by {
      ImageFileStep(c, env, excluded, dir, a, [b], Missing);
      PairConcat(a, b);
      PairConcat(stepA.tree, stepB.tree);
    }
    SelectionsConcat(stepA.trace, stepB.trace);
    PairConcat(jpg, png);
    PairConcat(env.md5(newA), env.md5(newB));
  }

  /** A directory that is neither excluded nor image-named is not hashed: only its children act. */
  lemma PlainDirectoryWalk(c: Config, env: Env, excluded: string -> bool, loaded: set<string>,
                           path: string, name: string, cs: seq<Tree>, ledger: LedgerFile)
    requires !excluded(path) && !IsImagePath(path)
    ensures var m := WalkChildren(c, env, excluded, loaded, path, cs, ledger);
      WalkEntry(c, env, excluded, loaded, path, Dir(name, cs), ledger)
        == Outcome(m.fatal, Dir(name, m.trees), m.ledger, m.trace)
  {
    var m := WalkChildren(c, env, excluded, loaded, path, cs, ledger);
    assert [] + m.trace == m.trace;
  }

  /** The scenario's two entry paths. */
  lemma ScenarioJoins()
    ensures Join("imgs", "a.jpg") == "imgs/a.jpg" && Join("imgs", "b.png") == "imgs/b.png"
  {
  }

  /** The scenario's configuration passes every start-up check. */
  lemma ScenarioStartup()
    ensures StartupCheck(Config("imgs", false, 84), IsDir) == None
  {
  }

  /** Past the start-up checks, with a loaded ledger and a compiled pattern, a run is its walk. */
  lemma RunIsWalk(c: Config, env: Env, root: Tree, ledger: LedgerFile, loaded: set<string>)
    requires StartupCheck(c, StatOf(Some(root))) == None
    requires Load(ledger) == Loaded(loaded) && env.exclude.Pattern?
    ensures var o := WalkEntry(c, env, env.exclude.matches, loaded, c.inputDir, root, ledger);
      Run(c, env, Some(root), ledger)
        == if o.fatal then Aborted(WalkAborted, o.tree, o.ledger, o.trace) else Finished(o.tree, o.ledger, o.trace)
  {
  }

  /** The first run of the two-image scenario. */
  lemma ScenarioFirstRun(env: Env, a: Bytes, b: Bytes)
    requires env.exclude.Pattern? && !env.exclude.matches("imgs")
    requires !env.exclude.matches("imgs/a.jpg") && !env.exclude.matches("imgs/b.png")
    requires env.run(["guetzli", "--quality", "84", "imgs/a.jpg", "imgs/a.jpg"], a).ToolSucceeded?
    requires env.run(["zopflipng", "-m", "-y", "imgs/b.png", "imgs/b.png"], b).ToolSucceeded?
    ensures var first := Run(Config("imgs", false, 84), env, Some(Dir("imgs", [File("a.jpg", a), File("b.png", b)])), Missing);
      var jpg := ["guetzli", "--quality", "84", "imgs/a.jpg", "imgs/a.jpg"];
      var png := ["zopflipng", "-m", "-y", "imgs/b.png", "imgs/b.png"];
      var newA := env.run(jpg, a).output;
      var newB := env.run(png, b).output;
      && first.Finished?
      && Commands(first.trace) == [jpg, png]
      && Appended(first.trace) == [env.md5(newA), env.md5(newB)]
      && first.tree == Dir("imgs", [File("a.jpg", newA), File("b.png", newB)])
  {
    var c := Config("imgs", false, 84);
    var excluded := env.exclude.matches;
    var fileA := File("a.jpg", a);
    var fileB := File("b.png", b);
    var root := Dir("imgs", [fileA, fileB]);
    var jpg := ["guetzli", "--quality", "84", "imgs/a.jpg", "imgs/a.jpg"];
    var png := ["zopflipng", "-m", "-y", "imgs/b.png", "imgs/b.png"];
    var newA := env.run(jpg, a).output;
    var newB := env.run(png, b).output;
    var m := WalkChildren(c, env, excluded, {}, "imgs", [fileA, fileB], Missing);
    assert && !m.fatal
           && m.trees == [File("a.jpg", newA), File("b.png", newB)]
           && Commands(m.trace) == [jpg, png]
           && Appended(m.trace) == [env.md5(newA), env.md5(newB)] by {
      ScenarioJpegCommand();
      ScenarioJoins();
      ScenarioImagePath("imgs/a.jpg", ".jpg");
      ScenarioImagePath("imgs/b.png", ".png");
      JpegThenPngChildren(c, env, excluded, "imgs", fileA, fileB);
    }
    var o := WalkEntry(c, env, excluded, {}, "imgs", root, Missing);
    assert o == Outcome(m.fatal, Dir("imgs", m.trees), m.ledger, m.trace) by {
      ScenarioRootIsNoImage();
      PlainDirectoryWalk(c, env, excluded, {}, "imgs", "imgs", [fileA, fileB], Missing);
    }
    assert Run(c, env, Some(root), Missing) == Finished(o.tree, o.ledger, o.trace) by {
      ScenarioStartup();
      assert StatOf(Some(root)) == IsDir;
      assert Load(Missing) == Loaded({});
      RunIsWalk(c, env, root, Missing, {});
    }
  }

  /**
   * The two-image scenario: `imgs` holds `a.jpg` and `b.png`, the ledger is
   * missing, nothing is excluded and both compressors succeed. The first run
   * starts `guetzli` on `a.jpg` and then `zopflipng` on `b.png`, rewrites both
   * files and appends the two new digests in that order, so the new ledger
   * holds exactly those two lines; a second run over
   * the result starts nothing.
   */
  lemma TwoImageScenario(env: Env, a: Bytes, b: Bytes)
    requires env.ledgerWritable && HashesAreDigests(env.md5)
    requires env.exclude.Pattern? && !env.exclude.matches("imgs")
    requires !env.exclude.matches("imgs/a.jpg") && !env.exclude.matches("imgs/b.png")
    requires env.run(["guetzli", "--quality", "84", "imgs/a.jpg", "imgs/a.jpg"], a).ToolSucceeded?
    requires env.run(["zopflipng", "-m", "-y", "imgs/b.png", "imgs/b.png"], b).ToolSucceeded?
    ensures var c := Config("imgs", false, 84);
      var root := Dir("imgs", [File("a.jpg", a), File("b.png", b)]);
      var first := Run(c, env, Some(root), Missing);
      var jpg := ["guetzli", "--quality", "84", "imgs/a.jpg", "imgs/a.jpg"];
      var png := ["zopflipng", "-m", "-y", "imgs/b.png", "imgs/b.png"];
      var newA := env.run(jpg, a).output;
      var newB := env.run(png, b).output;
      && first.Finished?
      && Commands(first.trace) == [jpg, png]
      && Appended(first.trace) == [env.md5(newA), env.md5(newB)]
      && first.tree == Dir("imgs", [File("a.jpg", newA), File("b.png", newB)])
      && first.ledger == Present(env.md5(newA) + "\n" + env.md5(newB) + "\n")
      && Commands(Run(c, env, Some(first.tree), first.ledger).trace) == []
  {
    ScenarioFirstRun(env, a, b);
    var root := Dir("imgs", [File("a.jpg", a), File("b.png", b)]);
    var first := Run(Config("imgs", false, 84), env, Some(root), Missing);
    RunLedgerIsAppends(Config("imgs", false, 84), env, Some(root), Missing);
    JoinLinesPair(Appended(first.trace));
    SecondRunCompressesNothing(Config("imgs", false, 84), env, Dir("imgs", [File("a.jpg", a), File("b.png", b)]), Missing);
  }

  lemma JoinLinesPair(ds: seq<string>)
    requires |ds| == 2
    ensures JoinLines(ds) == ds[0] + "\n" + ds[1] + "\n"
  {
    assert ds[1..][1..] == [];
  }
}

=== FILE: walker.dfy ===
/**
 * `walkInputDir`: the pre-order walk of the input directory with the
 * exclude pattern, handing every `.jpg`/`.png` entry it reaches to
 * `compress`, one entry completed (or the run aborted) before the next.
 * The digest set loaded at start-up is a parameter the walk never changes.
 */
module Walker {
  import opened Paths
  import opened FileTree
  import opened Ledger
  import opened Dispatch

  /** The state after walking a list of sibling entries. */
  datatype Outcomes = Outcomes(fatal: bool, trees: seq<Tree>, ledger: LedgerFile, trace: seq<Action>)

  /** Same name, same kind: what the walk keeps of every entry it passes. */
  predicate SameEntry(a: Tree, b: Tree) {
    a.name == b.name && (a.Dir? <==> b.Dir?)
  }

  /** What happens to the entry at `path` itself: `compress` when its extension passes the filter. */
  function EntryStep(c: Config, env: Env, loaded: set<string>, path: string, t: Tree, ledger: LedgerFile): (s: Outcome)
    ensures SameEntry(s.tree, t)
    ensures s.fatal ==> s.tree == t && s.ledger == ledger
    ensures s.ledger == ledger || (s.tree.File? && s.ledger == Record(ledger, env.md5(s.tree.content), env.ledgerWritable))
  {
    if IsImagePath(path) then Compress(c, env, loaded, path, ImageExt(path), t, ledger)
    else Outcome(false, t, ledger, [])
  }

  /** The entry's own step hashes the entry exactly when its path passes the extension filter. */
  lemma EntryStepInspects(c: Config, env: Env, loaded: set<string>, path: string, t: Tree, ledger: LedgerFile)
    ensures Inspected(EntryStep(c, env, loaded, path, t, ledger).trace) == if IsImagePath(path) then [path] else []
  {
    if IsImagePath(path) {
      CompressTrace(c, env, loaded, path, ImageExt(path), t, ledger);
    }
  }

  /**
   * The walk function applied to the entry at `path`: an excluded entry is
   * skipped, and a directory is then not descended into; otherwise an image
   * path goes to `compress`, and a directory's children are walked in order.
   */
  function WalkEntry(c: Config, env: Env, excluded: string -> bool, loaded: set<string>,
                     path: string, t: Tree, ledger: LedgerFile): (r: Outcome)
    ensures SameEntry(r.tree, t)
    decreases t
  {
    if excluded(path) then Outcome(false, t, ledger, [])
    else
      var s := EntryStep(c, env, loaded, path, t, ledger);
      if s.fatal || t.File? then s
      else
        var m := WalkChildren(c, env, excluded, loaded, path, t.children, s.ledger);
        Outcome(m.fatal, Dir(t.name, m.trees), m.ledger, s.trace + m.trace)
  }

  /** The children of directory `dir`, in order, stopping at the first fatal error. */
  function WalkChildren(c: Config, env: Env, excluded: string -> bool, loaded: set<string>,
                        dir: string, cs: seq<Tree>, ledger: LedgerFile): (r: Outcomes)
    ensures |r.trees| == |cs|
    ensures forall k :: 0 <= k < |cs| ==> SameEntry(r.trees[k], cs[k])
    decreases cs
  {
    if cs == [] then Outcomes(false, [], ledger, [])
    else
      var first := WalkEntry(c, env, excluded, loaded, Join(dir, cs[0].name), cs[0], ledger);
      if first.fatal then Outcomes(true, [first.tree] + cs[1..], first.ledger, first.trace)
      else
        var rest := WalkChildren(c, env, excluded, loaded, dir, cs[1..], first.ledger);
        Outcomes(rest.fatal, [first.tree] + rest.trees, rest.ledger, first.trace + rest.trace)
  }

  lemma QuietConcat(a: seq<Action>, b: seq<Action>)
    requires Quiet(a) && Quiet(b)
    ensures Quiet(a + b)
  {
    forall k | 0 <= k < |a + b|
      ensures (a + b)[k].Inspect?
    {
      if k >= |a| {
        assert (a + b)[k] == b[k - |a|];
      }
    }
  }

  /** One step of the sibling loop: the first entry, then the rest from the ledger it leaves. */
  lemma WalkChildrenStep(c: Config, env: Env, excluded: string -> bool, loaded: set<string>,
                         dir: string, t: Tree, cs: seq<Tree>, ledger: LedgerFile)
    ensures var first := WalkEntry(c, env, excluded, loaded, Join(dir, t.name), t, ledger);
      var rest := WalkChildren(c, env, excluded, loaded, dir, cs, first.ledger);
      var m := WalkChildren(c, env, excluded, loaded, dir, [t] + cs, ledger);
      && (first.fatal ==> m == Outcomes(true, [first.tree] + cs, first.ledger, first.trace))
      && (!first.fatal ==> m == Outcomes(rest.fatal, [first.tree] + rest.trees, rest.ledger, first.trace + rest.trace))
  {
    assert ([t] + cs)[0] == t && ([t] + cs)[1..] == cs;
  }

  lemma SelectionsConcat(a: seq<Action>, b: seq<Action>)
    ensures Inspected(a + b) == Inspected(a) + Inspected(b)
    ensures Commands(a + b) == Commands(a) + Commands(b)
    ensures Appended(a + b) == Appended(a) + Appended(b)
  {
    SelectConcat(a, b, InspectedPath);
    SelectConcat(a, b, ArgvOf);
    SelectConcat(a, b, DigestOf);
  }

  /**
   * An excluded entry yields nothing: no hashing, no command, no append, and
   * for a directory nothing below it is visited either.
   */
  lemma ExcludedEntryYieldsNothing(c: Config, env: Env, excluded: string -> bool, loaded: set<string>,
                                   path: string, t: Tree, ledger: LedgerFile)
    requires excluded(path)
    ensures WalkEntry(c, env, excluded, loaded, path, t, ledger) == Outcome(false, t, ledger, [])
    ensures Candidates(excluded, path, t) == []
  {
  }

  /**
   * There is no regular-file check before `compress`: a directory that is
   * not excluded and whose name ends in `.jpg` or `.png` is hashed, the read
   * fails, and the run aborts, in dry-run mode too.
   */
  lemma ImageNamedDirectoryAborts(c: Config, env: Env, excluded: string -> bool, loaded: set<string>,
                                  path: string, t: Tree, ledger: LedgerFile)
    requires t.Dir? && !excluded(path) && IsImagePath(path)
    ensures var r := WalkEntry(c, env, excluded, loaded, path, t, ledger);
      r.fatal && r.tree == t && r.ledger == ledger && Inspected(r.trace) == [path] && Commands(r.trace) == []
  {
    SkipSelections(path);
  }

  lemma PrefixConcat<T>(a: seq<T>, b: seq<T>, c: seq<T>)
    requires a <= b
    ensures a <= b + c
  {
    assert (b + c)[..|a|] == b[..|a|];
  }

  lemma PrefixExtend<T>(x: seq<T>, a: seq<T>, b: seq<T>)
    requires a <= b
    ensures x + a <= x + b
  {
    assert (x + b)[..|x + a|] == x + b[..|a|];
  }

  /**
   * The walk hands to `compress` the walker's candidates, in pre-order: the
   * non-excluded, non-pruned entries whose lower-cased extension is `.jpg`
   * or `.png`. A walk that aborts has hashed a prefix of them; a completed
   * walk has hashed them all.
   */
  lemma {:induction false} WalkVisitsCandidates(c: Config, env: Env, excluded: string -> bool, loaded: set<string>,
                                                path: string, t: Tree, ledger: LedgerFile)
    ensures var r := WalkEntry(c, env, excluded, loaded, path, t, ledger);
      && Inspected(r.trace) <= Candidates(excluded, path, t)
      && (!r.fatal ==> Inspected(r.trace) == Candidates(excluded, path, t))
    decreases t, 1
  {
    if !excluded(path) {
      var s := EntryStep(c, env, loaded, path, t, ledger);
      var head := if IsImagePath(path) then [path] else [];
      var below := if t.Dir? then CandidatesIn(excluded, path, t.children) else [];
      assert Candidates(excluded, path, t) == head + below;
      EntryStepInspects(c, env, loaded, path, t, ledger);
      if s.fatal || t.File? {
        PrefixConcat(head, head, below);
      } else {
        WalkChildrenVisitCandidates(c, env, excluded, loaded, path, t.children, s.ledger);
        var m := WalkChildren(c, env, excluded, loaded, path, t.children, s.ledger);
        SelectionsConcat(s.trace, m.trace);
        PrefixExtend(head, Inspected(m.trace), below);
        assert WalkEntry(c, env, excluded, loaded, path, t, ledger)
            == Outcome(m.fatal, Dir(t.name, m.trees), m.ledger, s.trace + m.trace);
      }
    }
  }

  lemma {:induction false} WalkChildrenVisitCandidates(c: Config, env: Env, excluded: string -> bool, loaded: set<string>,
                                                       dir: string, cs: seq<Tree>, ledger: LedgerFile)
    ensures var r := WalkChildren(c, env, excluded, loaded, dir, cs, ledger);
      && Inspected(r.trace) <= CandidatesIn(excluded, dir, cs)
      && (!r.fatal ==> Inspected(r.trace) == CandidatesIn(excluded, dir, cs))
    decreases cs, 0
  {
    if cs != [] {
      var first := WalkEntry(c, env, excluded, loaded, Join(dir, cs[0].name), cs[0], ledger);
      var head := Candidates(excluded, Join(dir, cs[0].name), cs[0]);
      var tail := CandidatesIn(excluded, dir, cs[1..]);
      assert CandidatesIn(excluded, dir, cs) == head + tail;
      WalkVisitsCandidates(c, env, excluded, loaded, Join(dir, cs[0].name), cs[0], ledger);
      if first.fatal {
        PrefixConcat(Inspected(first.trace), head, tail);
      } else {
        WalkChildrenVisitCandidates(c, env, excluded, loaded, dir, cs[1..], first.ledger);
        var rest := WalkChildren(c, env, excluded, loaded, dir, cs[1..], first.ledger);
        SelectionsConcat(first.trace, rest.trace);
        PrefixExtend(head, Inspected(rest.trace), tail);
      }
    }
  }

  /** In dry-run mode the entry's own step changes nothing and starts no command. */
  lemma EntryStepDryRun(c: Config, env: Env, loaded: set<string>, path: string, t: Tree, ledger: LedgerFile)
    requires c.dryRun
    ensures var s := EntryStep(c, env, loaded, path, t, ledger);
      s.tree == t && s.ledger == ledger && Commands(s.trace) == [] && Appended(s.trace) == []
  {
    if IsImagePath(path) {
      if t.Dir? {
        SkipSelections(path);
      } else {
        SkipAndDryRunArePure(c, env, loaded, path, ImageExt(path), t, ledger);
      }
    }
  }

  /**
   * Dry-run purity: whatever happens, no file content and no ledger byte
   * changes, and no command is started.
   */
  lemma {:induction false} DryRunWalkIsPure(c: Config, env: Env, excluded: string -> bool, loaded: set<string>,
                                            path: string, t: Tree, ledger: LedgerFile)
    requires c.dryRun
    ensures var r := WalkEntry(c, env, excluded, loaded, path, t, ledger);
      r.tree == t && r.ledger == ledger && Commands(r.trace) == [] && Appended(r.trace) == []
    decreases t, 1
  {
    if !excluded(path) {
      var s := EntryStep(c, env, loaded, path, t, ledger);
      EntryStepDryRun(c, env, loaded, path, t, ledger);
      if !s.fatal && t.Dir? {
        DryRunChildrenArePure(c, env, excluded, loaded, path, t.children, s.ledger);
        var m := WalkChildren(c, env, excluded, loaded, path, t.children, s.ledger);
        SelectionsConcat(s.trace, m.trace);
        assert WalkEntry(c, env, excluded, loaded, path, t, ledger)
            == Outcome(m.fatal, Dir(t.name, m.trees), m.ledger, s.trace + m.trace);
      }
    }
  }

  lemma {:induction false} DryRunChildrenArePure(c: Config, env: Env, excluded: string -> bool, loaded: set<string>,
                                                 dir: string, cs: seq<Tree>, ledger: LedgerFile)
    requires c.dryRun
    ensures var r := WalkChildren(c, env, excluded, loaded, dir, cs, ledger);
      r.trees == cs && r.ledger == ledger && Commands(r.trace) == [] && Appended(r.trace) == []
    decreases cs, 0
  {
    if cs != [] {
      var first := WalkEntry(c, env, excluded, loaded, Join(dir, cs[0].name), cs[0], ledger);
      DryRunWalkIsPure(c, env, excluded, loaded, Join(dir, cs[0].name), cs[0], ledger);
      if !first.fatal {
        DryRunChildrenArePure(c, env, excluded, loaded, dir, cs[1..], first.ledger);
        var rest := WalkChildren(c, env, excluded, loaded, dir, cs[1..], first.ledger);
        SelectionsConcat(first.trace, rest.trace);
        assert [cs[0]] + cs[1..] == cs;
      } else {
        assert [cs[0]] + cs[1..] == cs;
      }
    }
  }

  /**
   * Every entry the walk would hand to `compress` is a regular file whose
   * digest is in `done`: the state a completed run leaves behind.
   */
  ghost predicate Settled(md5: Bytes -> string, excluded: string -> bool, path: string, t: Tree, done: set<string>)
    decreases t
  {
    excluded(path)
    || (&& (IsImagePath(path) ==> t.File? && md5(t.content) in done)
        && (t.Dir? ==> forall k :: 0 <= k < |t.children| ==>
              Settled(md5, excluded, Join(path, t.children[k].name), t.children[k], done)))
  }

  lemma {:induction false} SettledGrows(md5: Bytes -> string, excluded: string -> bool, path: string, t: Tree,
                                        done: set<string>, more: set<string>)
    requires Settled(md5, excluded, path, t, done) && done <= more
    ensures Settled(md5, excluded, path, t, more)
    decreases t
  {
    if !excluded(path) && t.Dir? {
      forall k | 0 <= k < |t.children|
        ensures Settled(md5, excluded, Join(path, t.children[k].name), t.children[k], more)
      {
        SettledGrows(md5, excluded, Join(path, t.children[k].name), t.children[k], done, more);
      }
    }
  }

  /**
   * A tree already settled against the loaded set is walked without any
   * work: only hashing happens, and neither the tree nor the ledger changes.
   */
  lemma {:induction false} SettledWalkIsQuiet(c: Config, env: Env, excluded: string -> bool, loaded: set<string>,
                                              path: string, t: Tree, ledger: LedgerFile)
    requires Settled(env.md5, excluded, path, t, loaded)
    ensures var r := WalkEntry(c, env, excluded, loaded, path, t, ledger);
      !r.fatal && r.tree == t && r.ledger == ledger && Quiet(r.trace)
    decreases t, 1
  {
    if !excluded(path) {
      var s := EntryStep(c, env, loaded, path, t, ledger);
      assert !s.fatal && s.tree == t && s.ledger == ledger && Quiet(s.trace) by {
        if IsImagePath(path) {
          SkipAndDryRunArePure(c, env, loaded, path, ImageExt(path), t, ledger);
        }
      }
      if t.Dir? {
        SettledChildrenAreQuiet(c, env, excluded, loaded, path, t.children, ledger);
        var m := WalkChildren(c, env, excluded, loaded, path, t.children, ledger);
        QuietConcat(s.trace, m.trace);
        assert WalkEntry(c, env, excluded, loaded, path, t, ledger)
            == Outcome(m.fatal, Dir(t.name, m.trees), m.ledger, s.trace + m.trace);
      }
    }
  }

  lemma {:induction false} SettledChildrenAreQuiet(c: Config, env: Env, excluded: string -> bool, loaded: set<string>,
                                                   dir: string, cs: seq<Tree>, ledger: LedgerFile)
    requires forall k :: 0 <= k < |cs| ==> Settled(env.md5, excluded, Join(dir, cs[k].name), cs[k], loaded)
    ensures var r := WalkChildren(c, env, excluded, loaded, dir, cs, ledger);
      !r.fatal && r.trees == cs && r.ledger == ledger && Quiet(r.trace)
    decreases cs, 0
  {
    if cs != [] {
      var tail := cs[1..];
      SettledWalkIsQuiet(c, env, excluded, loaded, Join(dir, cs[0].name), cs[0], ledger);
      var first := WalkEntry(c, env, excluded, loaded, Join(dir, cs[0].name), cs[0], ledger);
      forall k | 0 <= k < |tail|
        ensures Settled(env.md5, excluded, Join(dir, tail[k].name), tail[k], loaded)
      {
        assert tail[k] == cs[k + 1];
      }
      SettledChildrenAreQuiet(c, env, excluded, loaded, dir, tail, ledger);
      var rest := WalkChildren(c, env, excluded, loaded, dir, tail, ledger);
      QuietConcat(first.trace, rest.trace);
      assert WalkChildren(c, env, excluded, loaded, dir, cs, ledger)
          == Outcomes(false, [cs[0]] + tail, ledger, first.trace + rest.trace);
      assert [cs[0]] + tail == cs;
    }
  }

  /**
   * Outside dry-run mode and with a writable ledger, a completed walk leaves
   * the tree settled against what a fresh load of the grown ledger returns.
   */
  lemma {:induction false} WalkSettles(c: Config, env: Env, excluded: string -> bool, loaded: set<string>,
                                       path: string, t: Tree, ledger: LedgerFile)
    requires !c.dryRun && env.ledgerWritable && HashesAreDigests(env.md5)
    requires WellFormed(ledger) && Load(ledger).Loaded? && loaded <= Load(ledger).digests
    ensures var r := WalkEntry(c, env, excluded, loaded, path, t, ledger);
      !r.fatal ==>
        && WellFormed(r.ledger) && Load(r.ledger).Loaded?
        && Load(ledger).digests <= Load(r.ledger).digests
        && Settled(env.md5, excluded, path, r.tree, Load(r.ledger).digests)
    decreases t, 1
  {
    var r := WalkEntry(c, env, excluded, loaded, path, t, ledger);
    if !excluded(path) && !r.fatal {
      var s := EntryStep(c, env, loaded, path, t, ledger);
      if IsImagePath(path) {
        CompressSettles(c, env, loaded, path, ImageExt(path), t, ledger);
      }
      if t.Dir? {
        WalkChildrenSettle(c, env, excluded, loaded, path, t.children, s.ledger);
        var m := WalkChildren(c, env, excluded, loaded, path, t.children, s.ledger);
        assert r.tree == Dir(t.name, m.trees);
        forall k | 0 <= k < |m.trees|
          ensures Settled(env.md5, excluded, Join(path, m.trees[k].name), m.trees[k], Load(r.ledger).digests)
        {
          assert m.trees[k].name == t.children[k].name;
        }
      }
    }
  }

  lemma {:induction false} WalkChildrenSettle(c: Config, env: Env, excluded: string -> bool, loaded: set<string>,
                                              dir: string, cs: seq<Tree>, ledger: LedgerFile)
    requires !c.dryRun && env.ledgerWritable && HashesAreDigests(env.md5)
    requires WellFormed(ledger) && Load(ledger).Loaded? && loaded <= Load(ledger).digests
    ensures var r := WalkChildren(c, env, excluded, loaded, dir, cs, ledger);
      !r.fatal ==>
        && WellFormed(r.ledger) && Load(r.ledger).Loaded?
        && Load(ledger).digests <= Load(r.ledger).digests
        && forall k :: 0 <= k < |cs| ==>
             Settled(env.md5, excluded, Join(dir, cs[k].name), r.trees[k], Load(r.ledger).digests)
    decreases cs, 0
  {
    var r := WalkChildren(c, env, excluded, loaded, dir, cs, ledger);
    if cs != [] && !r.fatal {
      var first := WalkEntry(c, env, excluded, loaded, Join(dir, cs[0].name), cs[0], ledger);
      WalkSettles(c, env, excluded, loaded, Join(dir, cs[0].name), cs[0], ledger);
      WalkChildrenSettle(c, env, excluded, loaded, dir, cs[1..], first.ledger);
      var rest := WalkChildren(c, env, excluded, loaded, dir, cs[1..], first.ledger);
      var done := Load(r.ledger).digests;
      SettledGrows(env.md5, excluded, Join(dir, cs[0].name), first.tree, Load(first.ledger).digests, done);
      forall k | 0 <= k < |cs|
        ensures Settled(env.md5, excluded, Join(dir, cs[k].name), r.trees[k], done)
      {
        if k > 0 {
          assert cs[1..][k - 1] == cs[k];
          assert r.trees[k] == rest.trees[k - 1];
        }
      }
    }
  }

  /** The entry's own step changes the ledger file only by the digests its trace appends. */
  lemma EntryStepLedgerIsAppends(c: Config, env: Env, loaded: set<string>, path: string, t: Tree, ledger: LedgerFile)
    ensures var s := EntryStep(c, env, loaded, path, t, ledger);
      s.ledger == RecordAll(ledger, Appended(s.trace), env.ledgerWritable)
  {
    if IsImagePath(path) {
      CompressLedgerIsAppends(c, env, loaded, path, ImageExt(path), t, ledger);
    } else {
      assert Appended([]) == [];
    }
  }

  /**
   * After a walk the ledger file is the file it started from with exactly the
   * trace's `Append` digests written to it, in trace order, each through
   * `writeMD5toFile`: nothing is written that the trace does not show.
   */
  lemma {:induction false} WalkLedgerIsAppends(c: Config, env: Env, excluded: string -> bool, loaded: set<string>,
                                               path: string, t: Tree, ledger: LedgerFile)
    ensures var r := WalkEntry(c, env, excluded, loaded, path, t, ledger);
      r.ledger == RecordAll(ledger, Appended(r.trace), env.ledgerWritable)
    decreases t, 1
  {
    var r := WalkEntry(c, env, excluded, loaded, path, t, ledger);
    if excluded(path) {
      assert Appended([]) == [];
    } else {
      var s := EntryStep(c, env, loaded, path, t, ledger);
      EntryStepLedgerIsAppends(c, env, loaded, path, t, ledger);
      if !s.fatal && t.Dir? {
        var m := WalkChildren(c, env, excluded, loaded, path, t.children, s.ledger);
        assert r == Outcome(m.fatal, Dir(t.name, m.trees), m.ledger, s.trace + m.trace);
        WalkChildrenLedgerIsAppends(c, env, excluded, loaded, path, t.children, s.ledger);
        SelectionsConcat(s.trace, m.trace);
        RecordAllConcat(ledger, Appended(s.trace), Appended(m.trace), env.ledgerWritable);
      }
    }
  }

  lemma {:induction false} WalkChildrenLedgerIsAppends(c: Config, env: Env, excluded: string -> bool, loaded: set<string>,
                                                       dir: string, cs: seq<Tree>, ledger: LedgerFile)
    ensures var r := WalkChildren(c, env, excluded, loaded, dir, cs, ledger);
      r.ledger == RecordAll(ledger, Appended(r.trace), env.ledgerWritable)
    decreases cs, 0
  {
    var r := WalkChildren(c, env, excluded, loaded, dir, cs, ledger);
    if cs == [] {
      assert Appended([]) == [];
    } else {
      var first := WalkEntry(c, env, excluded, loaded, Join(dir, cs[0].name), cs[0], ledger);
      WalkLedgerIsAppends(c, env, excluded, loaded, Join(dir, cs[0].name), cs[0], ledger);
      if !first.fatal {
        var rest := WalkChildren(c, env, excluded, loaded, dir, cs[1..], first.ledger);
        assert r.ledger == rest.ledger && r.trace == first.trace + rest.trace;
        WalkChildrenLedgerIsAppends(c, env, excluded, loaded, dir, cs[1..], first.ledger);
        SelectionsConcat(first.trace, rest.trace);
        RecordAllConcat(ledger, Appended(first.trace), Appended(rest.trace), env.ledgerWritable);
      }
    }
  }
}

=== FILE: wrappers.dfy ===
/** The optional-value type shared by the modules of this model. */
module Wrappers {

  datatype Option<+T> = None | Some(value: T)
}
